=== FILE: README.md ===
# nf_tables bitwise expression, in Dafny

This project models the nf_tables `bitwise` expression of the Linux kernel
(`net/netfilter/nft_bitwise.c`). A rule uses the expression to transform a
value held in the 32-bit registers of `struct nft_regs`. The expression reads
the Words(len) = DIV_ROUND_UP(len, 4) 32-bit words at the source register
`sreg` and writes as many whole words at the destination register `dreg`, so
up to three bytes past `len` in the last word are rewritten too. The
transform is one of:

- BOOL: `(src & mask) ^ xor`. The mask and the xor are each either an
  immediate value or another register (the MASK_REG / XOR_REG flags).
- LSHIFT: a left shift of the whole value by fewer than 32 bits, with carries
  between words.
- RSHIFT: the same shift to the right.

The model covers four parts of the expression:

- **Evaluation** (`nft_bitwise_eval` and its three loops).
- **Construction** from a netlink attribute table (`nft_bitwise_init`,
  `_init_bool`, `_init_shift`). This includes every error path and a ledger of
  the decoded immediates each attempt takes and releases.
- **The listing** of an expression back to attributes (`nft_bitwise_dump*`).
- **The offload check** (`nft_bitwise_offload`).

Modules and files:

| file | module | what it holds |
|---|---|---|
| errors.dfy | `Errors` | errno values, `Option`, `Result`, `Check` |
| registers.dfy | `Registers` | `Words` (DIV_ROUND_UP(len, 4)), windows of the register file, `Overwrite`, the register contract |
| wordshift.dfy | `WordShift` | per-word shift steps, the bit-level meaning of a multi-word shift, the clean and in-place word sequences |
| expr.dfy | `Expr` | `struct nft_bitwise` as a datatype, its flags, well-formedness, validity under a register contract |
| eval.dfy | `BitwiseEval` | the three evaluation loops as recursive functions, with frame, BOOL, shift and aliasing theorems |
| loops.dfy | `Loops` | the same loops as methods over an array, shown to compute `BitwiseEval.Eval` |
| attrs.dfy | `Attributes` | the attribute table, nested data, `nft_data_init` / `nft_data_dump` as seen by the expression |
| init.dfy | `BitwiseInit` | construction, the validation matrix, the release ledger |
| dump.dfy | `BitwiseDump` | the listing and the dump→init round trip |
| offload.dfy | `BitwiseOffload` | the offload check as written, and a corrected version |
| scenarios.dfy | `Scenarios` | init→eval in bounds, and worked cases under a sample register contract |

Conventions:

- The register file is one `seq<bv32>` (or one `array<bv32>` in `Loops`). The
  source and destination are windows of `Words(len)` words in it, so
  overlapping windows see each other's writes exactly as in the C loops.
- A multi-word value is read big-endian: word 0 is the most significant. The
  multi-word shifts are stated bit by bit (`IsLeftShift`, `IsRightShift`).
- The shift amount is 0 to 31. A shift by 0 makes the loops shift a word by
  32 bits, which C leaves undefined. Here it gives 0 (the `bv32` rule), so a
  shift by 0 carries nothing and copies the value (`WordShift.ShiftByZero`).

## Model

| member | source | states |
|---|---|---|
| Expr.OpOfCode | net/netfilter/nft_bitwise.c:238-250 | an op code is accepted exactly when it is below 3, and it names the op whose wire value it is |
| Expr.Flags | net/netfilter/nft_bitwise.c:145-170 | MASK_REG is set exactly when the mask is in register form, and XOR_REG exactly when the xor is; no other bit is ever set, so the flags are 0 exactly when both operands are immediates |
| Expr.ValidInBounds | net/netfilter/nft_bitwise.c:227-236 | under a sound register contract, every window an accepted expression reads or writes lies inside the register file, so evaluation needs no run-time check |
| Registers.Words | net/netfilter/nft_bitwise.c:57 | DIV_ROUND_UP(len, 4) words cover the len bytes with less than one word to spare |
| WordShift.LShiftWordsIsLeftShift | net/netfilter/nft_bitwise.c:61-72 | shifting word by word, each word taking the top bits of the next, gives the left shift of the whole big-endian value: each bit moves `shift` places towards word 0, bits leaving word 0 are lost, and zeros enter at the bottom |
| WordShift.RShiftWordsIsRightShift | net/netfilter/nft_bitwise.c:74-85 | the word-by-word right shift is the right shift of the whole value: zeros enter word 0, bits leaving the last word are lost |
| WordShift.LeftWordBit | net/netfilter/nft_bitwise.c:69-70 | each bit of `(w << s) \| (next >> (32 - s))` is the bit `s` places lower in `w`, or in `next` past the word's end |
| WordShift.RightWordBit | net/netfilter/nft_bitwise.c:82-83 | each bit of `(prev << (32 - s)) \| (w >> s)` is the bit `s` places higher in `w`, or in `prev` before the word's start |
| WordShift.CarryOfZero | net/netfilter/nft_bitwise.c:66 | a zero word carries nothing into its neighbour, whatever the amount, so the `carry = 0` both loops start from acts as a zero word past the end of the value |
| WordShift.ShiftByZero | net/netfilter/nft_bitwise.c:69-70 | with amount 0 no word carries anything into its neighbour, and every word shifted left or right is itself (a shift by 32 taken as 0) |
| WordShift.InPlaceLShiftOneWord | net/netfilter/nft_bitwise.c:68-71 | for a value of one word, the in-place left shift (carry read after the write) equals the clean shift |
| WordShift.InPlaceRShiftOneWord | net/netfilter/nft_bitwise.c:81-84 | for a value of one word, the in-place right shift equals the clean shift |
| WordShift.InPlaceLShiftLosesCarry | net/netfilter/nft_bitwise.c:69-70 | for two words `[0, 0xF0000000]` shifted left by 4, the clean shift is `[0xF, 0]` but the in-place loop gives `[0, 0]`: the carry is read back from a word already shifted |
| WordShift.InPlaceRShiftLosesCarry | net/netfilter/nft_bitwise.c:82-83 | for `[0xF, 0]` shifted right by 4, the clean shift is `[0, 0xF0000000]` but the in-place loop gives `[0, 0]` |
| BitwiseEval.BoolLoop | net/netfilter/nft_bitwise.c:57-58 | the BOOL loop keeps the file's size; `BoolLoopFrame`, `BoolLoopComputes` and `BoolEval` give what it writes |
| BitwiseEval.LShiftLoop | net/netfilter/nft_bitwise.c:68-71 | the LSHIFT loop keeps the file's size; `LShiftLoopDisjoint`, `LShiftLoopInPlace`, `LShiftEvalIsShift` and `LShiftEvalInPlace` give what it writes |
| BitwiseEval.RShiftLoop | net/netfilter/nft_bitwise.c:81-84 | the RSHIFT loop keeps the file's size; `RShiftLoopDisjoint`, `RShiftLoopInPlace`, `RShiftEvalIsShift` and `RShiftEvalInPlace` give what it writes |
| BitwiseEval.Eval | net/netfilter/nft_bitwise.c:87-105 | evaluation has no error result and keeps the file's size; `EvalFrame`, `BoolEval`, `LShiftEvalIsShift` / `RShiftEvalIsShift` and `LShiftEvalInPlace` / `RShiftEvalInPlace` give its meaning |
| BitwiseEval.EvalFrame | net/netfilter/nft_bitwise.c:87-105 | evaluation, whatever the op and however the windows overlap, changes only the Words(len) words at dreg; every other register keeps its value |
| BitwiseEval.BoolLoopComputes | net/netfilter/nft_bitwise.c:57-58 | when no register window is read after it was overwritten, the BOOL loop from any step writes the masked xor of the original words |
| BitwiseEval.BoolEval | net/netfilter/nft_bitwise.c:40-59 | BOOL in place, or with windows that are not read after being written: word i at dreg becomes `(src[i] & mask[i]) ^ xor[i]`, the mask and xor taken from the immediate or from the registers at mask.reg / xor.reg, and nothing else changes |
| BitwiseEval.LShiftLoopDisjoint | net/netfilter/nft_bitwise.c:68-71 | with disjoint windows, the LSHIFT loop run from any step, with the carry it holds there, ends with the clean left shift written at dreg |
| BitwiseEval.RShiftLoopDisjoint | net/netfilter/nft_bitwise.c:81-84 | with disjoint windows, the RSHIFT loop run from any step ends with the clean right shift written at dreg |
| BitwiseEval.LShiftLoopInPlace | net/netfilter/nft_bitwise.c:68-71 | with sreg == dreg, the LSHIFT loop run from any step ends with the in-place word sequence, each carry read from the word just rewritten |
| BitwiseEval.RShiftLoopInPlace | net/netfilter/nft_bitwise.c:81-84 | with sreg == dreg, the RSHIFT loop run from any step ends with the in-place word sequence |
| BitwiseEval.LShiftEvalDisjoint | net/netfilter/nft_bitwise.c:61-72 | LSHIFT with disjoint windows writes the clean word-by-word left shift of the source window at dreg, and nothing else changes |
| BitwiseEval.RShiftEvalDisjoint | net/netfilter/nft_bitwise.c:74-85 | RSHIFT with disjoint windows writes the clean right shift at dreg, and nothing else changes |
| BitwiseEval.LShiftEvalIsShift | net/netfilter/nft_bitwise.c:61-72 | LSHIFT with disjoint windows leaves at dreg the source value, read as one big-endian number, shifted left by the amount |
| BitwiseEval.RShiftEvalIsShift | net/netfilter/nft_bitwise.c:74-85 | RSHIFT with disjoint windows leaves at dreg the source value shifted right by the amount, zeros entering word 0 |
| BitwiseEval.LShiftEvalInPlace | net/netfilter/nft_bitwise.c:68-71 | LSHIFT in place leaves exactly the in-place word sequence at dreg, and nothing else changes |
| BitwiseEval.RShiftEvalInPlace | net/netfilter/nft_bitwise.c:81-84 | RSHIFT in place leaves exactly the in-place word sequence at dreg, and nothing else changes |
| BitwiseEval.LShiftInPlaceOneWord | net/netfilter/nft_bitwise.c:61-72 | LSHIFT in place on a value of at most four bytes is the left shift of that word |
| BitwiseEval.RShiftInPlaceOneWord | net/netfilter/nft_bitwise.c:74-85 | RSHIFT in place on a value of at most four bytes is the right shift of that word |
| BitwiseEval.LShiftInPlaceExample | net/netfilter/nft_bitwise.c:68-71 | an eight-byte LSHIFT by 4 in place over `[0, 0xF0000000]` leaves `[0, 0]`, while the shift of the value is `[0xF, 0]` |
| Loops.BoolInto | net/netfilter/nft_bitwise.c:47-58 | the array loop, reading each mask and xor word from the immediate or from the register as the array holds it at that moment, leaves the array as the recursive BOOL loop leaves the file |
| Loops.LShiftInto | net/netfilter/nft_bitwise.c:68-71 | the array loop, walking down from the last word and reading the carry after each write, leaves the array as the recursive LSHIFT loop does |
| Loops.RShiftInto | net/netfilter/nft_bitwise.c:81-84 | the array loop, walking up from word 0, leaves the array as the recursive RSHIFT loop does |
| Loops.Evaluate | net/netfilter/nft_bitwise.c:87-105 | evaluation on an array register file gives exactly `BitwiseEval.Eval` and changes only the destination window |
| Attributes.DataInit | net/netfilter/nft_bitwise.c:137-141 | decoding a nested datum into a 16-byte struct nft_data: an undecodable datum gives its errno, one longer than 16 bytes gives EOVERFLOW, and an accepted one is copied into four words, zero past its length |
| Attributes.DataDump | net/netfilter/nft_bitwise.c:272-274 | an immediate is dumped as a value of its length, carrying exactly the words that hold it |
| Attributes.DataRoundTrip | net/netfilter/nft_bitwise.c:281-283 | a dumped immediate decodes back to the storage it was dumped from, as a value of the same length |
| BitwiseInit.InitXor | net/netfilter/nft_bitwise.c:154-179 | the xor half of BOOL init: the register form exactly when XOR is absent; an undecodable XOR gives the decoder's errno and releases the mask (err1); an XOR not a value of LEN bytes gives EINVAL and releases the xor, then the mask (err2); a refused XREG gives the load check's errno and releases nothing; on success the holds are the immediates of the result; on error nothing is released twice, and only the mask value can stay held |
| BitwiseInit.InitBool | net/netfilter/nft_bitwise.c:119-180 | BOOL init refuses DATA and anything but exactly one of MASK/MREG and of XOR/XREG with EINVAL; then an undecodable MASK gives the decoder's errno, a MASK not a value of LEN bytes gives EINVAL with the mask released, a refused MREG gives the load check's errno, and, the mask accepted, the xor refusals give the same errnos with the exact releases: the mask alone for an undecodable XOR, the xor then the mask for a mismatched one, nothing for a refused XREG; an accepted operand is in register form exactly when its register attribute was given; releases never exceed what was taken |
| BitwiseInit.InitShift | net/netfilter/nft_bitwise.c:182-206 | shift init refuses MASK, XOR or a missing DATA with EINVAL; an undecodable DATA gives the decoder's errno; a decoded DATA that is not a 4-byte value below 32 gives EINVAL and is released; an accepted expression has a 4-byte value below 32 as its amount; an error leaves nothing held |
| BitwiseInit.Init | net/netfilter/nft_bitwise.c:208-263 | a missing SREG, DREG or LEN gives EINVAL and a LEN over 255 gives ERANGE; every accepted expression is valid under the register contract; on success the held immediates are exactly those of the expression and none is released; every release matches an earlier decode and none happens twice; on error only a mask value can stay held |
| BitwiseInit.InitAccepts | net/netfilter/nft_bitwise.c:208-263 | init succeeds exactly on the tables of the field-by-field validation matrix (both directions) |
| BitwiseInit.InitBoolAccepts | net/netfilter/nft_bitwise.c:125-170 | BOOL init succeeds exactly when DATA is absent and each operand is given in one usable form |
| BitwiseInit.InitShiftAccepts | net/netfilter/nft_bitwise.c:188-205 | shift init succeeds exactly when MASK and XOR are absent and DATA is a 4-byte value whose first word is below 32 |
| BitwiseInit.InitHeaderErrors | net/netfilter/nft_bitwise.c:227-246 | the first failing header check decides the errno: the source register's load check, then the destination's store check, then EOPNOTSUPP for an unknown op |
| BitwiseInit.InitFields | net/netfilter/nft_bitwise.c:225-258 | an accepted expression has the parsed registers, LEN, the op the OP field names, and each BOOL operand in the form given, with the parsed register index |
| BitwiseInit.OpDefaultsToBool | net/netfilter/nft_bitwise.c:238-250 | a table without OP builds the same as one with OP = BOOL |
| BitwiseInit.OpTruncated | net/netfilter/nft_bitwise.c:239-240 | OP is stored into the 8-bit `op` field before the switch, so OP = 256 + c acts as OP = c |
| BitwiseInit.ShiftIgnoresRegisterForms | net/netfilter/nft_bitwise.c:188-193 | for LSHIFT and RSHIFT, MREG and XREG change nothing |
| BitwiseInit.XorDecodeFailureReleasesMask | net/netfilter/nft_bitwise.c:155-178 | when the xor fails to decode after the mask immediate was decoded, the mask is released exactly once and the decode's errno is returned |
| BitwiseInit.XorMismatchReleasesBoth | net/netfilter/nft_bitwise.c:160-178 | when the xor immediate decodes but is not a value of LEN bytes after a mask immediate was decoded, init fails with EINVAL, having decoded the mask then the xor and released the xor then the mask |
| BitwiseInit.XregRefusalKeepsMask | net/netfilter/nft_bitwise.c:164-168 | when XREG is refused after the mask immediate was decoded, init fails with nothing released, so the mask value stays held |
| BitwiseDump.DumpBool | net/netfilter/nft_bitwise.c:265-287 | the BOOL listing gives each operand in exactly one form, MREG / XREG exactly when the operand is a register |
| BitwiseDump.Dump | net/netfilter/nft_bitwise.c:298-323 | the listing always has SREG, DREG, LEN and OP (the op's wire value); a shift lists DATA and no operand attribute |
| BitwiseDump.BoolRoundTrip | net/netfilter/nft_bitwise.c:265-287 | a valid BOOL expression, listed and fed back to init, comes back the same, holding its immediates and releasing nothing |
| BitwiseDump.ShiftRoundTrip | net/netfilter/nft_bitwise.c:289-296 | a valid shift, listed and fed back to init, comes back the same |
| BitwiseDump.RoundTrip | net/netfilter/nft_bitwise.c:298-323 | every valid expression, listed and fed back to init, is rebuilt exactly, holding the same immediates and releasing nothing |
| BitwiseDump.InitDumpInit | net/netfilter/nft_bitwise.c:208-323 | any table init accepted, listed and fed back to init, builds the same expression |
| BitwiseOffload.UnionImage | net/netfilter/nft_bitwise.c:30-37 | the 16 bytes of a mask or xor union: the immediate's storage, or a register index in the low byte, which compares equal to zero exactly for index 0 |
| BitwiseOffload.Offload | net/netfilter/nft_bitwise.c:327-344 | offload fails only with EOPNOTSUPP; it succeeds exactly for BOOL whose xor union is all zero bytes, in place, with a length matching the offload register, and then it only replaces that register's mask with the mask union |
| BitwiseOffload.OffloadChecked | net/netfilter/nft_bitwise.c:327-344 | the corrected offload fails only with EOPNOTSUPP; it succeeds exactly when both operands are immediates and the original succeeds, and then installs what the original installs |
| BitwiseOffload.OffloadAcceptsExample | net/netfilter/nft_bitwise.c:334-341 | BOOL in place on word 4 with mask 0xff and xor 0 is offloaded by both versions as the mask `[0xff, 0, 0, 0]`; the same expression writing word 5 is refused with EOPNOTSUPP |
| BitwiseOffload.OffloadCheckedAgrees | net/netfilter/nft_bitwise.c:337-341 | whenever the corrected offload accepts, masking the destination register with the installed mask gives, on every register file, exactly what evaluation gives |
| BitwiseOffload.OffloadCheckedOnImmediates | net/netfilter/nft_bitwise.c:334-343 | with both operands immediate, the corrected offload decides and installs exactly what the original does |
| BitwiseOffload.OffloadRegisterMaskExample | net/netfilter/nft_bitwise.c:337-341 | as written, a BOOL in place on word 4 whose mask is word 8 is offloaded with the register index 8 installed as the mask; the corrected check refuses it |
| BitwiseOffload.OffloadRegisterMaskDiffers | net/netfilter/nft_bitwise.c:47-58 | on a file with all ones in words 4 and 8, evaluation of that expression leaves all ones in word 4, while the installed mask leaves 8 |
| Scenarios.InitInBounds | net/netfilter/nft_bitwise.c:227-236 | under a sound contract, every expression init accepts evaluates inside the register file |
| Scenarios.ShiftAmountBound | net/netfilter/nft_bitwise.c:199-203 | a shift by 31 is accepted; a shift by 32 is refused with EINVAL, and its decoded DATA is released |
| Scenarios.KernelReparsesBelow | net/netfilter/nft_bitwise.c:225-236 | every word index of the 20-word file, dumped with the kernel's register numbering and parsed back, is the same index |
| Scenarios.KernelSound | net/netfilter/nft_bitwise.c:225-236 | the kernel's numbering and window checks keep every accepted window in the file and reparse every index they accept |
| Scenarios.KernelLossyPastFile | net/netfilter/nft_bitwise.c:302-305 | past the file the kernel's pair is lossy (word 20 dumps as 5, which parses as word 1), and no check accepts word 20 |
| Scenarios.KernelRoundTrip | net/netfilter/nft_bitwise.c:298-323 | under the kernel's register contract every valid expression, listed and fed back to init, is rebuilt exactly |
| Scenarios.MaskRegisterTableAccepted | net/netfilter/nft_bitwise.c:146-151 | the wire table SREG = DREG = 8, LEN = 4, MREG = 12, XOR = 0 is accepted as BOOL in place on word 4 with mask word 8, and offload as written installs 8 as the mask |
| Scenarios.OffloadRefusesXorRegister | net/netfilter/nft_bitwise.c:164-169 | under the kernel's checks an xor in register form names word 4 or above, so its union is never zero and offload as written refuses it |
| Scenarios.BoolSample | net/netfilter/nft_bitwise.c:57-58 | BOOL with mask 0xff and xor 0 turns 0x12345678 into 0x78 |
| Scenarios.LShiftSample | net/netfilter/nft_bitwise.c:68-71 | LSHIFT by 4 turns 0x12345678 into 0x23456780 |

### Behaviour of the code worth knowing

- A refused XREG does not release an already decoded MASK immediate: when
  XREG fails its load check, init returns without reaching `err1` (lines
  164-168, `BitwiseInit.XregRefusalKeepsMask`). The mask is then a value, and
  releasing a value does nothing, so nothing leaks. The ledger therefore
  states "only a mask value can stay held" rather than "everything is
  released".
- Every MASK, XOR and DATA shape, type, length or amount error is EINVAL
  (`BitwiseInit.InitBool`, `BitwiseInit.InitShift`), except that a MASK, XOR
  or DATA longer than 16 bytes is refused by the decoder with EOVERFLOW
  (`Attributes.DataInit`). A missing header field
  is EINVAL too, a LEN over 255 is ERANGE and an unknown OP is EOPNOTSUPP
  (`BitwiseInit.Init`, `BitwiseInit.InitHeaderErrors`). A refused register
  returns whatever errno the register check gives, and an undecodable datum
  the decoder's errno.
- OP is stored into an 8-bit field before it is checked, so OP = 256 is
  accepted as BOOL (`BitwiseInit.OpTruncated`). The register attributes are
  stored into 8-bit fields the same way.
- Shift init does not look at MREG or XREG (`BitwiseInit.ShiftIgnoresRegisterForms`).
- With sreg == dreg and more than one word, LSHIFT and RSHIFT read each carry
  from a word they have just rewritten. The result need not be the shift of
  the value (`BitwiseEval.LShiftInPlaceExample`). For one word there is no carry,
  and the result is the shift (`BitwiseEval.LShiftInPlaceOneWord`).

## Findings

| source | as written | input that shows it | evidently intended | confidence | as-written member | corrected member |
|---|---|---|---|---|---|---|
| net/netfilter/nft_bitwise.c:337-341 | offload compares the xor union with zero and copies the mask union, ignoring the MASK_REG / XOR_REG flags | SREG = DREG = 8 (word 4), LEN = 4, MREG = 12 (word 8), XOR = 0: init accepts, and offload installs 8 as the mask | refuse offload when either operand is in register form | medium, not executed | BitwiseOffload.OffloadRegisterMaskExample | BitwiseOffload.OffloadChecked |

With a register-form operand, the union holds a register index, not a mask or
an xor value. A mask register has its index installed as the mask
(`Scenarios.MaskRegisterTableAccepted` builds the case from a wire table).
`BitwiseOffload.OffloadRegisterMaskDiffers` shows the installed mask giving 8
where evaluation gives 0xffffffff. On the xor side the flag is ignored
harmlessly: an accepted xor register is word 4 or above, so its union is never
zero and offload refuses it (`Scenarios.OffloadRefusesXorRegister`). `BitwiseOffload.OffloadCheckedAgrees`
proves that the corrected check accepts only expressions that the hardware
mask evaluates exactly.

## Left out

- Netlink and skb encoding. This covers `nla_get_be32` / `nla_put_be32`,
  byte order, the `nla_policy` table (lines 107-117) and the registration
  structs (lines 346-361). Attributes are a record of optional values.
  Running out of room in the skb while dumping (the `-1` returns) is not
  modelled, so `Dump` always yields a table.
- `nft_parse_register`, `nft_dump_register`, `nft_validate_register_load` and
  `nft_validate_register_store` are fields of `RegisterContract`, because
  their bodies are in nf_tables_api.c, which is not part of this model. The
  round trip assumes that parsing undoes dumping for every index a load or
  store check accepts (`Reparses`); other indices may dump lossily. Bounds
  assume that an accepted window lies in the file (`Sound`). `Scenarios.Kernel`
  gives the kernel's numbering (NFT_REG_4 = 4, NFT_REG32_00 = 8) and window
  checks, and `Scenarios.KernelSound` shows it meets both assumptions.
- `nft_data_init` is reduced to what the expression relies on: a datum it
  rejects with some errno, the EOVERFLOW check against the 16-byte storage,
  and zero padding. Its other checks, such as empty values and verdicts
  without a context, appear only as `Undecodable(err)`. A `Verdict` datum is
  kept possible, so the model allows more than the kernel can produce.
- Bytes within the last word past `len` are whatever the datum's words hold.
  The model works on whole words and does not zero them byte by byte.
- `Attributes.DataInit`: does not model `nft_data_init` rejecting a zero-length
  value, because that check lies in nf_tables_api.c.
- `nft_data_release` is recorded in the ledger but not executed. The
  expression has no destroy operation, so no release after a successful
  init is modelled.
- `BitwiseOffload.UnionImage`: takes the union's little-endian layout; on a
  big-endian machine the register byte is the high byte of word 0. The
  offload finding holds under either layout, since a nonzero register index
  is installed as the mask either way.
- Of the offload context, only the destination's `{len, mask}` entry is
  modelled. Flow-rule compilation is left out.
- Concurrency and lifetime. The expression is read-only while it is evaluated,
  and locking is external.
- `WordShift.ShiftByZero`: a shift by 0 shifts words by 32 bits, which C
  leaves undefined. The model takes the bv32 rule (the result is 0), so a
  shift by 0 copies the value. arm64 and x86 take the shift count mod 32, so
  compiled code would normally OR the neighbouring word in unshifted; the 0
  is the model's choice, not what the hardware does.
- A nested datum whose words are fewer than Words(len) cannot come off the
  wire; the model reads the missing words as zero rather than excluding it.

=== FILE: attrs.dfy ===
/** The netlink attributes of a bitwise expression (NFTA_BITWISE_*) and the
    nested data attributes its immediates travel in. Attribute values are the
    host-order numbers ntohl gives back; the wire encoding itself is not part
    of this model. */
module Attributes {
  import opened Errors
  import opened Registers
  import opened Expr

  /** enum nft_data_types, as far as the expression tells them apart. */
  datatype DataType = Value | Verdict

  /** A nested NFTA_DATA attribute as the generic decoder nft_data_init sees
      it: either something it rejects, with the errno it returns, or a datum of
      some type whose value is `len` bytes long, given as the words that hold
      those bytes. A datum off the wire always carries all Words(len) of them;
      should `value` hold fewer, the decoder below reads the missing words as
      zero. */
  datatype NestedData =
    | Undecodable(err: Errno)
    | Data(kind: DataType, len: nat, value: seq<bv32>)

  /** struct nft_data_desc: what the decoder reports about a datum. */
  datatype DataDesc = DataDesc(kind: DataType, len: nat)

  /** A decoded datum: the four words of its struct nft_data and its description. */
  datatype Decoded = Decoded(storage: seq<bv32>, desc: DataDesc)

  /** sizeof(struct nft_data), the size every call in the expression passes. */
  const DATA_SIZE: nat := 16

  /** Word `j` of the storage a datum decodes into: the value's words, zero
      past them. */
  function StorageWord(value: seq<bv32>, len: nat, j: nat): bv32
  {
    if j < Words(len) && j < |value| then value[j] else 0
  }

  /** nft_data_init(NULL, storage, sizeof(struct nft_data), desc, nla), as the
      expression relies on it: a value longer than the storage is refused with
      EOVERFLOW, and an accepted one is copied into the four words, zero-padded. */
  function DataInit(nd: NestedData): (r: Result<Decoded>)
    ensures nd.Undecodable? ==> r == Err(nd.err)
    ensures nd.Data? ==> (r.Ok? <==> nd.len <= DATA_SIZE)
    ensures nd.Data? && nd.len > DATA_SIZE ==> r == Err(EOVERFLOW)
    ensures r.Ok? ==> r.value.desc == DataDesc(nd.kind, nd.len) && IsStorage(r.value.storage, nd.len)
    ensures r.Ok? ==> forall j :: 0 <= j < Words(nd.len) && j < |nd.value| ==> r.value.storage[j] == nd.value[j]
  {
    match nd
    case Undecodable(err) => Err(err)
    case Data(kind, len, value) =>
      if len > DATA_SIZE then Err(EOVERFLOW)
      else Ok(Decoded(seq(DATA_WORDS, j requires 0 <= j < DATA_WORDS => StorageWord(value, len, j)), DataDesc(kind, len)))
  }

  /** nft_data_dump(skb, attr, storage, NFT_DATA_VALUE, len): the first `len`
      bytes of the storage as a nested value. */
  function DataDump(storage: seq<bv32>, len: nat): (nd: NestedData)
    requires IsStorage(storage, len)
    ensures nd.Data? && nd.kind == Value && nd.len == len && |nd.value| == Words(len)
  {
    Data(Value, len, storage[..Words(len)])
  }

  /** A dumped immediate decodes to the storage it was dumped from. */
  lemma DataRoundTrip(storage: seq<bv32>, len: nat)
    requires IsStorage(storage, len)
    ensures DataInit(DataDump(storage, len)) == Ok(Decoded(storage, DataDesc(Value, len)))
  {
    var nd := DataDump(storage, len);
    var r := DataInit(nd);
    assert r.Ok?;
    forall j | 0 <= j < DATA_WORDS
      ensures r.value.storage[j] == storage[j]
    {
      assert r.value.storage[j] == StorageWord(nd.value, len, j);
    }
    assert r.value.storage == storage;
  }

  /** The attribute table of one expression, tb[NFTA_BITWISE_*]: None where an
      attribute is absent. Register, length and op attributes are u32 values;
      MASK, XOR and DATA are nested data. */
  datatype Attrs = Attrs(
    sreg: Option<nat>,
    dreg: Option<nat>,
    len: Option<nat>,
    mask: Option<NestedData>,
    xor: Option<NestedData>,
    op: Option<nat>,
    data: Option<NestedData>,
    mreg: Option<nat>,
    xreg: Option<nat>)

  /** A table with no attribute at all. */
  const NoAttrs: Attrs := Attrs(None, None, None, None, None, None, None, None, None)
}

=== FILE: dump.dfy ===
/** nft_bitwise_dump, nft_bitwise_dump_bool and nft_bitwise_dump_shift: the
    attribute table an expression is listed as, and the round trip back
    through init. */
module BitwiseDump {
  import opened Errors
  import opened Registers
  import opened Expr
  import opened Attributes
  import opened BitwiseInit

  /** nft_bitwise_dump_bool: each operand as MREG / XREG when its flag is set,
      else as a nested value of LEN bytes. */
  function DumpBool(rc: RegisterContract, e: Bitwise, header: Attrs): (a: Attrs)
    requires e.body.BoolBody? && WellFormed(e)
    requires header.mask.None? && header.mreg.None? && header.xor.None? && header.xreg.None?
    ensures a.sreg == header.sreg && a.dreg == header.dreg && a.data == header.data && a.op == header.op && a.len == header.len
    ensures a.mask.Some? != a.mreg.Some? && a.xor.Some? != a.xreg.Some?
    ensures a.mreg.Some? <==> e.body.mask.Register?
    ensures a.xreg.Some? <==> e.body.xor.Register?
  {
    var flags := Flags(e.body);
    var a := if flags & MASK_REG != 0
      then header.(mreg := Some(rc.unparse(e.body.mask.reg)))
      else header.(mask := Some(DataDump(e.body.mask.data, e.len)));
    if flags & XOR_REG != 0
    then a.(xreg := Some(rc.unparse(e.body.xor.reg)))
    else a.(xor := Some(DataDump(e.body.xor.data, e.len)))
  }

  /** nft_bitwise_dump: SREG, DREG, LEN and OP always, then the op's own part;
      a shift dumps its 4-byte DATA. */
  function Dump(rc: RegisterContract, e: Bitwise): (a: Attrs)
    requires WellFormed(e)
    ensures a.sreg.Some? && a.dreg.Some? && a.len == Some(e.len) && a.op == Some(OpCode(OpOf(e)))
    ensures e.body.BoolBody? ==> a.data.None? && a.mask.Some? != a.mreg.Some? && a.xor.Some? != a.xreg.Some?
    ensures e.body.ShiftBody? ==> a.data.Some? && a.mask.None? && a.xor.None? && a.mreg.None? && a.xreg.None?
  {
    var header := NoAttrs.(
      sreg := Some(rc.unparse(e.sreg)),
      dreg := Some(rc.unparse(e.dreg)),
      len := Some(e.len),
      op := Some(OpCode(OpOf(e))));
    match e.body
    case BoolBody(_, _) => DumpBool(rc, e, header)
    case ShiftBody(_, data) => header.(data := Some(DataDump(data, 4)))
  }

  /** Dump then init, for a BOOL expression: the same registers, length,
      operand forms and operand values. */
  lemma BoolRoundTrip(rc: RegisterContract, e: Bitwise)
    requires Reparses(rc) && Valid(rc, e) && e.body.BoolBody?
    ensures Init(rc, Dump(rc, e)) == Outcome(Ok(e), Holds(e), [])
  {
    var a := Dump(rc, e);
    var mask, xor := e.body.mask, e.body.xor;
    assert ParseRegister(rc, a.sreg.value) == e.sreg;
    assert ParseRegister(rc, a.dreg.value) == e.dreg;
    assert OpField(a) == OpCode(Bool);
    match mask {
      case Immediate(d) => DataRoundTrip(d, e.len);
      case Register(r) => assert ParseRegister(rc, a.mreg.value) == r;
    }
    match xor {
      case Immediate(d) => DataRoundTrip(d, e.len);
      case Register(r) => assert ParseRegister(rc, a.xreg.value) == r;
    }
  }

  /** Dump then init, for a shift: the same registers, length, direction and
      amount storage. */
  lemma ShiftRoundTrip(rc: RegisterContract, e: Bitwise)
    requires Reparses(rc) && Valid(rc, e) && e.body.ShiftBody?
    ensures Init(rc, Dump(rc, e)) == Outcome(Ok(e), Holds(e), [])
  {
    var a := Dump(rc, e);
    assert ParseRegister(rc, a.sreg.value) == e.sreg;
    assert ParseRegister(rc, a.dreg.value) == e.dreg;
    DataRoundTrip(e.body.data, 4);
    assert OpField(a) == OpCode(OpOf(e));
  }

  /** Every expression init can build is listed as a table that init turns
      back into the same expression, holding the same immediates and
      releasing nothing. */
  lemma RoundTrip(rc: RegisterContract, e: Bitwise)
    requires Reparses(rc) && Valid(rc, e)
    ensures Init(rc, Dump(rc, e)) == Outcome(Ok(e), Holds(e), [])
  {
    if e.body.BoolBody? {
      BoolRoundTrip(rc, e);
    } else {
      ShiftRoundTrip(rc, e);
    }
  }

  /** Init then dump then init: whatever table init accepted, the listing of
      the expression builds that expression again. */
  lemma InitDumpInit(rc: RegisterContract, a: Attrs)
    requires Reparses(rc) && Init(rc, a).result.Ok?
    ensures Init(rc, Dump(rc, Init(rc, a).result.value)).result == Init(rc, a).result
  {
    RoundTrip(rc, Init(rc, a).result.value);
  }
}

=== FILE: errors.dfy ===
/** Error codes and the small result types shared by the bitwise expression model. */
module Errors {

  /** The errno values the expression returns (the kernel returns them negated).
      `Other` carries a code chosen by a collaborator whose body is not modelled
      (the register-file contract, the generic data decoder). */
  datatype Errno = EINVAL | ERANGE | EOPNOTSUPP | EOVERFLOW | Other(code: nat)

  /** An attribute slot that may be absent. */
  datatype Option<+T> = None | Some(value: T)

  /** A value, or the errno that replaced it. */
  datatype Result<+T> = Ok(value: T) | Err(error: Errno)

  /** The answer of a validation helper that returns 0 or a negative errno. */
  datatype Check = Pass | Fail(error: Errno)
}

=== FILE: eval.dfy ===
/** nft_bitwise_eval: one pass of the expression over a register file. The
    register file is one sequence of 32-bit words; `src` and `dst` of the
    source are the windows of Words(len) words at `sreg` and `dreg`, and every
    read sees the writes made before it, exactly as the C loops do when the
    windows overlap. */
module BitwiseEval {
  import opened Registers
  import opened Expr
  import opened WordShift

  /** Word `i` of an operand: the immediate's storage, or the register file as
      it stands at the moment of the read. */
  function Fetch(o: Operand, regs: seq<bv32>, i: nat): bv32
    requires OperandInBounds(o, i + 1, |regs|)
  {
    match o
    case Immediate(d) => d[i]
    case Register(r) => regs[r + i]
  }

  /** The BOOL transform of one word: masked, then xored. */
  function MaskXor(w: bv32, mask: bv32, xor: bv32): bv32
  {
    (w & mask) ^ xor
  }

  /** `after` differs from `before` at most in the words `lo` .. `hi` - 1. */
  ghost predicate Frame(before: seq<bv32>, after: seq<bv32>, lo: nat, hi: nat)
  {
    && |after| == |before|
    && forall k :: 0 <= k < |before| && !(lo <= k < hi) ==> after[k] == before[k]
  }

  /** The windows the BOOL loop touches, `n` words each, lie in a file of `size` words. */
  predicate BoolFits(size: nat, sreg: nat, dreg: nat, mask: Operand, xor: Operand, n: nat)
  {
    sreg + n <= size && dreg + n <= size && OperandInBounds(mask, n, size) && OperandInBounds(xor, n, size)
  }

  /** The windows a shift loop touches lie in the file and the amount is below 32. */
  predicate ShiftFits(size: nat, sreg: nat, dreg: nat, s: bv32, n: nat)
  {
    s < 32 && sreg + n <= size && dreg + n <= size
  }

  /** The loop of nft_bitwise_eval_bool from word `i` on, `n` words in all. */
  function BoolLoop(regs: seq<bv32>, sreg: nat, dreg: nat, mask: Operand, xor: Operand, n: nat, i: nat): (out: seq<bv32>)
    requires i <= n && BoolFits(|regs|, sreg, dreg, mask, xor, n)
    ensures |out| == |regs|
    decreases n - i
  {
    if i == n then regs
    else
      var w := MaskXor(regs[sreg + i], Fetch(mask, regs, i), Fetch(xor, regs, i));
      BoolLoop(regs[dreg + i := w], sreg, dreg, mask, xor, n, i + 1)
  }

  /** The loop of nft_bitwise_eval_lshift with `i` words still to do, walking
      from the last word to word 0; the carry is read from the source word after
      the destination word was written. */
  function LShiftLoop(regs: seq<bv32>, sreg: nat, dreg: nat, s: bv32, i: nat, carry: bv32): (out: seq<bv32>)
    requires ShiftFits(|regs|, sreg, dreg, s, i)
    ensures |out| == |regs|
    decreases i
  {
    if i == 0 then regs
    else
      var regs' := regs[dreg + i - 1 := ShiftInLeft(regs[sreg + i - 1], s, carry)];
      LShiftLoop(regs', sreg, dreg, s, i - 1, CarryLeft(regs'[sreg + i - 1], s))
  }

  /** The loop of nft_bitwise_eval_rshift from word `i` on, `n` words in all,
      walking from word 0 to the last word; the carry is read from the source
      word after the destination word was written. */
  function RShiftLoop(regs: seq<bv32>, sreg: nat, dreg: nat, s: bv32, n: nat, i: nat, carry: bv32): (out: seq<bv32>)
    requires i <= n && ShiftFits(|regs|, sreg, dreg, s, n)
    ensures |out| == |regs|
    decreases n - i
  {
    if i == n then regs
    else
      var regs' := regs[dreg + i := ShiftInRight(carry, regs[sreg + i], s)];
      RShiftLoop(regs', sreg, dreg, s, n, i + 1, CarryRight(regs'[sreg + i], s))
  }

  /** nft_bitwise_eval: dispatch on the op. It has no error result. */
  function Eval(e: Bitwise, regs: seq<bv32>): (out: seq<bv32>)
    requires InBounds(e, |regs|)
    ensures |out| == |regs|
  {
    var n := Words(e.len);
    match e.body
    case BoolBody(mask, xor) => BoolLoop(regs, e.sreg, e.dreg, mask, xor, n, 0)
    case ShiftBody(Left, data) => LShiftLoop(regs, e.sreg, e.dreg, data[0], n, 0)
    case ShiftBody(Right, data) => RShiftLoop(regs, e.sreg, e.dreg, data[0], n, 0, 0)
  }

  // ---------------------------------------------------------------- frame

  lemma {:induction false} BoolLoopFrame(regs: seq<bv32>, sreg: nat, dreg: nat, mask: Operand, xor: Operand, n: nat, i: nat)
    requires i <= n && BoolFits(|regs|, sreg, dreg, mask, xor, n)
    ensures Frame(regs, BoolLoop(regs, sreg, dreg, mask, xor, n, i), dreg + i, dreg + n)
    decreases n - i
  {
    if i < n {
      var w := MaskXor(regs[sreg + i], Fetch(mask, regs, i), Fetch(xor, regs, i));
      BoolLoopFrame(regs[dreg + i := w], sreg, dreg, mask, xor, n, i + 1);
    }
  }

  lemma {:induction false} LShiftLoopFrame(regs: seq<bv32>, sreg: nat, dreg: nat, s: bv32, i: nat, carry: bv32)
    requires ShiftFits(|regs|, sreg, dreg, s, i)
    ensures Frame(regs, LShiftLoop(regs, sreg, dreg, s, i, carry), dreg, dreg + i)
    decreases i
  {
    if i > 0 {
      var regs' := regs[dreg + i - 1 := ShiftInLeft(regs[sreg + i - 1], s, carry)];
      LShiftLoopFrame(regs', sreg, dreg, s, i - 1, CarryLeft(regs'[sreg + i - 1], s));
    }
  }

  lemma {:induction false} RShiftLoopFrame(regs: seq<bv32>, sreg: nat, dreg: nat, s: bv32, n: nat, i: nat, carry: bv32)
    requires i <= n && ShiftFits(|regs|, sreg, dreg, s, n)
    ensures Frame(regs, RShiftLoop(regs, sreg, dreg, s, n, i, carry), dreg + i, dreg + n)
    decreases n - i
  {
    if i < n {
      var regs' := regs[dreg + i := ShiftInRight(carry, regs[sreg + i], s)];
      RShiftLoopFrame(regs', sreg, dreg, s, n, i + 1, CarryRight(regs'[sreg + i], s));
    }
  }

  /** Whatever the windows overlap, evaluation writes only the Words(len)
      words at `dreg`; every other register keeps its value. */
  lemma EvalFrame(e: Bitwise, regs: seq<bv32>)
    requires InBounds(e, |regs|)
    ensures Frame(regs, Eval(e, regs), e.dreg, e.dreg + Words(e.len))
  {
    var n := Words(e.len);
    match e.body
    case BoolBody(mask, xor) => BoolLoopFrame(regs, e.sreg, e.dreg, mask, xor, n, 0);
    case ShiftBody(Left, data) => LShiftLoopFrame(regs, e.sreg, e.dreg, data[0], n, 0);
    case ShiftBody(Right, data) => RShiftLoopFrame(regs, e.sreg, e.dreg, data[0], n, 0, 0);
  }

  // ---------------------------------------------------------------- BOOL

  /** The masked xor of every word, computed from `regs` as it is. */
  function MaskXorWords(regs: seq<bv32>, sreg: nat, mask: Operand, xor: Operand, n: nat): (r: seq<bv32>)
    requires sreg + n <= |regs| && OperandInBounds(mask, n, |regs|) && OperandInBounds(xor, n, |regs|)
    ensures |r| == n
  {
    seq(n, i requires 0 <= i < n => MaskXor(regs[sreg + i], Fetch(mask, regs, i), Fetch(xor, regs, i)))
  }

  /** No word of the window at `r` is read after the loop has overwritten it:
      the destination does not start strictly inside the window. */
  predicate NoStaleRead(r: nat, dreg: nat, n: nat)
  {
    !(r < dreg < r + n)
  }

  predicate OperandFresh(o: Operand, dreg: nat, n: nat)
  {
    o.Register? ==> NoStaleRead(o.reg, dreg, n)
  }

  /** Every window the BOOL loop reads is free of stale reads. */
  predicate BoolFresh(sreg: nat, dreg: nat, mask: Operand, xor: Operand, n: nat)
  {
    NoStaleRead(sreg, dreg, n) && OperandFresh(mask, dreg, n) && OperandFresh(xor, dreg, n)
  }

  /** With the first `|written|` destination words written (whatever they
      hold), the next step of the BOOL loop still reads the original words. */
  lemma BoolStepReadsOriginal(orig: seq<bv32>, sreg: nat, dreg: nat, mask: Operand, xor: Operand, n: nat, written: seq<bv32>)
    requires |written| < n && BoolFits(|orig|, sreg, dreg, mask, xor, n) && BoolFresh(sreg, dreg, mask, xor, n)
    ensures Overwrite(orig, dreg, written)[sreg + |written|] == orig[sreg + |written|]
    ensures Fetch(mask, Overwrite(orig, dreg, written), |written|) == Fetch(mask, orig, |written|)
    ensures Fetch(xor, Overwrite(orig, dreg, written), |written|) == Fetch(xor, orig, |written|)
  {
    var i := |written|;
    OverwriteAt(orig, dreg, written, sreg + i);
    if mask.Register? {
      OverwriteAt(orig, dreg, written, mask.reg + i);
    }
    if xor.Register? {
      OverwriteAt(orig, dreg, written, xor.reg + i);
    }
  }

  /** The file after `i` steps of a BOOL loop that reads no stale word. */
  function BoolDone(orig: seq<bv32>, sreg: nat, dreg: nat, mask: Operand, xor: Operand, n: nat, i: nat): (r: seq<bv32>)
    requires i <= n && BoolFits(|orig|, sreg, dreg, mask, xor, n)
    ensures |r| == |orig|
  {
    Overwrite(orig, dreg, MaskXorWords(orig, sreg, mask, xor, n)[..i])
  }

  lemma BoolStep(orig: seq<bv32>, sreg: nat, dreg: nat, mask: Operand, xor: Operand, n: nat, i: nat)
    requires i < n && BoolFits(|orig|, sreg, dreg, mask, xor, n) && BoolFresh(sreg, dreg, mask, xor, n)
    ensures BoolLoop(BoolDone(orig, sreg, dreg, mask, xor, n, i), sreg, dreg, mask, xor, n, i)
         == BoolLoop(BoolDone(orig, sreg, dreg, mask, xor, n, i + 1), sreg, dreg, mask, xor, n, i + 1)
  {
    var want := MaskXorWords(orig, sreg, mask, xor, n);
    var cur := BoolDone(orig, sreg, dreg, mask, xor, n, i);
    BoolStepReadsOriginal(orig, sreg, dreg, mask, xor, n, want[..i]);
    assert MaskXor(cur[sreg + i], Fetch(mask, cur, i), Fetch(xor, cur, i)) == want[i];
    OverwriteGrowUp(orig, dreg, want, i);
  }

  lemma {:induction false} BoolLoopComputes(orig: seq<bv32>, sreg: nat, dreg: nat, mask: Operand, xor: Operand, n: nat, i: nat)
    requires i <= n && BoolFits(|orig|, sreg, dreg, mask, xor, n) && BoolFresh(sreg, dreg, mask, xor, n)
    ensures BoolLoop(BoolDone(orig, sreg, dreg, mask, xor, n, i), sreg, dreg, mask, xor, n, i)
         == BoolDone(orig, sreg, dreg, mask, xor, n, n)
    decreases n - i
  {
    if i < n {
      BoolStep(orig, sreg, dreg, mask, xor, n, i);
      BoolLoopComputes(orig, sreg, dreg, mask, xor, n, i + 1);
    }
  }

  /** BOOL: when no window is read after being overwritten (in particular when
      the expression works in place, sreg == dreg), every destination word is
      (src & mask) ^ xor of the words as they were, and nothing else changes. */
  lemma BoolEval(e: Bitwise, regs: seq<bv32>)
    requires e.body.BoolBody? && InBounds(e, |regs|)
    requires BoolFresh(e.sreg, e.dreg, e.body.mask, e.body.xor, Words(e.len))
    ensures Eval(e, regs) == Overwrite(regs, e.dreg, MaskXorWords(regs, e.sreg, e.body.mask, e.body.xor, Words(e.len)))
  {
    var n := Words(e.len);
    var want := MaskXorWords(regs, e.sreg, e.body.mask, e.body.xor, n);
    assert want[..0] == [] && want[..n] == want;
    OverwriteNothing(regs, e.dreg);
    BoolLoopComputes(regs, e.sreg, e.dreg, e.body.mask, e.body.xor, n, 0);
  }

  // ---------------------------------------------------------------- shifts

  /** The source and destination windows of `n` words share no word. */
  predicate Disjoint(sreg: nat, dreg: nat, n: nat)
  {
    sreg + n <= dreg || dreg + n <= sreg
  }

  /** Word `i` of the clean left shift is word `i` shifted in with the carry
      out of word `i + 1` (zero past the end). */
  lemma LShiftWordsAt(src: seq<bv32>, s: bv32, i: nat, carry: bv32)
    requires s < 32 && i < |src|
    requires carry == if i + 1 < |src| then CarryLeft(src[i + 1], s) else 0
    ensures ShiftInLeft(src[i], s, carry) == LShiftWords(src, s)[i]
  {
    CarryOfZero(s);
  }

  lemma RShiftWordsAt(src: seq<bv32>, s: bv32, i: nat, carry: bv32)
    requires s < 32 && i < |src|
    requires carry == if i > 0 then CarryRight(src[i - 1], s) else 0
    ensures ShiftInRight(carry, src[i], s) == RShiftWords(src, s)[i]
  {
    CarryOfZero(s);
  }

  /** The file after the disjoint LSHIFT loop has written words `i` .. `n` - 1. */
  function LShiftDone(orig: seq<bv32>, sreg: nat, dreg: nat, s: bv32, n: nat, i: nat): (r: seq<bv32>)
    requires i <= n && ShiftFits(|orig|, sreg, dreg, s, n)
    ensures |r| == |orig|
  {
    Overwrite(orig, dreg + i, LShiftWords(orig[sreg..sreg + n], s)[i..])
  }

  /** The carry the LSHIFT loop holds with `i` words to do, windows disjoint. */
  function LShiftCarry(orig: seq<bv32>, sreg: nat, s: bv32, n: nat, i: nat): bv32
    requires i <= n && s < 32 && sreg + n <= |orig|
  {
    if i < n then CarryLeft(orig[sreg + i], s) else 0
  }

  /** LShiftWordsAt for a window of the register file. */
  lemma LShiftWindowAt(orig: seq<bv32>, sreg: nat, s: bv32, n: nat, i: nat)
    requires i < n && s < 32 && sreg + n <= |orig|
    ensures ShiftInLeft(orig[sreg + i], s, LShiftCarry(orig, sreg, s, n, i + 1)) == LShiftWords(orig[sreg..sreg + n], s)[i]
  {
    var src := orig[sreg..sreg + n];
    assert src[i] == orig[sreg + i];
    if i + 1 < n {
      assert src[i + 1] == orig[sreg + i + 1];
    }
    LShiftWordsAt(src, s, i, LShiftCarry(orig, sreg, s, n, i + 1));
  }

  /** Writing the next word of the clean left shift grows the written suffix. */
  lemma LShiftDisjointNext(orig: seq<bv32>, sreg: nat, dreg: nat, s: bv32, n: nat, i: nat)
    requires 0 < i <= n && ShiftFits(|orig|, sreg, dreg, s, n)
    ensures LShiftDone(orig, sreg, dreg, s, n, i)[dreg + i - 1 := ShiftInLeft(orig[sreg + i - 1], s, LShiftCarry(orig, sreg, s, n, i))]
         == LShiftDone(orig, sreg, dreg, s, n, i - 1)
  {
    LShiftWindowAt(orig, sreg, s, n, i - 1);
    OverwriteGrowDown(orig, dreg, LShiftWords(orig[sreg..sreg + n], s), i);
  }

  lemma LShiftDisjointStep(orig: seq<bv32>, sreg: nat, dreg: nat, s: bv32, n: nat, i: nat)
    requires 0 < i <= n && ShiftFits(|orig|, sreg, dreg, s, n) && Disjoint(sreg, dreg, n)
    ensures LShiftLoop(LShiftDone(orig, sreg, dreg, s, n, i), sreg, dreg, s, i, LShiftCarry(orig, sreg, s, n, i))
         == LShiftLoop(LShiftDone(orig, sreg, dreg, s, n, i - 1), sreg, dreg, s, i - 1, LShiftCarry(orig, sreg, s, n, i - 1))
  {
    var w := ShiftInLeft(orig[sreg + i - 1], s, LShiftCarry(orig, sreg, s, n, i));
    OverwriteAt(orig, dreg + i, LShiftWords(orig[sreg..sreg + n], s)[i..], sreg + i - 1);
    LShiftDisjointNext(orig, sreg, dreg, s, n, i);
    assert LShiftDone(orig, sreg, dreg, s, n, i)[dreg + i - 1 := w][sreg + i - 1] == orig[sreg + i - 1];
  }

  lemma {:induction false} LShiftLoopDisjoint(orig: seq<bv32>, sreg: nat, dreg: nat, s: bv32, n: nat, i: nat)
    requires i <= n && ShiftFits(|orig|, sreg, dreg, s, n) && Disjoint(sreg, dreg, n)
    ensures LShiftLoop(LShiftDone(orig, sreg, dreg, s, n, i), sreg, dreg, s, i, LShiftCarry(orig, sreg, s, n, i))
         == LShiftDone(orig, sreg, dreg, s, n, 0)
    decreases i
  {
    if i > 0 {
      LShiftDisjointStep(orig, sreg, dreg, s, n, i);
      LShiftLoopDisjoint(orig, sreg, dreg, s, n, i - 1);
    }
  }

  /** The first word of the in-place left shift is word 0 shifted in with the
      carry out of word 1 as that word was already rewritten. */
  lemma InPlaceLShiftFirst(ws: seq<bv32>, s: bv32, carry: bv32)
    requires s < 32 && |ws| > 0
    requires carry == if |ws| > 1 then CarryLeft(InPlaceLShiftWords(ws[1..], s)[0], s) else 0
    ensures InPlaceLShiftWords(ws, s) == [ShiftInLeft(ws[0], s, carry)] + InPlaceLShiftWords(ws[1..], s)
  {
    CarryOfZero(s);
  }

  /** The file after the in-place LSHIFT loop has rewritten words `i` .. `n` - 1. */
  function LInPlaceDone(orig: seq<bv32>, r: nat, s: bv32, n: nat, i: nat): (out: seq<bv32>)
    requires i <= n && ShiftFits(|orig|, r, r, s, n)
    ensures |out| == |orig|
  {
    Overwrite(orig, r + i, InPlaceLShiftWords(orig[r + i..r + n], s))
  }

  /** The carry of the in-place LSHIFT loop: read back from the word just rewritten. */
  function LInPlaceCarry(orig: seq<bv32>, r: nat, s: bv32, n: nat, i: nat): bv32
    requires i <= n && s < 32 && r + n <= |orig|
  {
    if i < n then CarryLeft(InPlaceLShiftWords(orig[r + i..r + n], s)[0], s) else 0
  }

  /** Writing the next shifted word turns the file with `i` words to do into the one with `i - 1`. */
  lemma InPlaceLShiftNext(orig: seq<bv32>, r: nat, s: bv32, n: nat, i: nat)
    requires 0 < i <= n && ShiftFits(|orig|, r, r, s, n)
    ensures LInPlaceDone(orig, r, s, n, i)[r + i - 1 := ShiftInLeft(orig[r + i - 1], s, LInPlaceCarry(orig, r, s, n, i))]
         == LInPlaceDone(orig, r, s, n, i - 1)
    ensures LInPlaceCarry(orig, r, s, n, i - 1) == CarryLeft(ShiftInLeft(orig[r + i - 1], s, LInPlaceCarry(orig, r, s, n, i)), s)
  {
    var ws := orig[r + i - 1..r + n];
    assert ws[1..] == orig[r + i..r + n];
    InPlaceLShiftFirst(ws, s, LInPlaceCarry(orig, r, s, n, i));
    OverwritePrepend(orig, r + i, InPlaceLShiftWords(orig[r + i..r + n], s), ShiftInLeft(orig[r + i - 1], s, LInPlaceCarry(orig, r, s, n, i)));
  }

  lemma InPlaceLShiftStep(orig: seq<bv32>, r: nat, s: bv32, n: nat, i: nat)
    requires 0 < i <= n && ShiftFits(|orig|, r, r, s, n)
    ensures LShiftLoop(LInPlaceDone(orig, r, s, n, i), r, r, s, i, LInPlaceCarry(orig, r, s, n, i))
         == LShiftLoop(LInPlaceDone(orig, r, s, n, i - 1), r, r, s, i - 1, LInPlaceCarry(orig, r, s, n, i - 1))
  {
    OverwriteAt(orig, r + i, InPlaceLShiftWords(orig[r + i..r + n], s), r + i - 1);
    InPlaceLShiftNext(orig, r, s, n, i);
  }

  lemma {:induction false} LShiftLoopInPlace(orig: seq<bv32>, r: nat, s: bv32, n: nat, i: nat)
    requires i <= n && ShiftFits(|orig|, r, r, s, n)
    ensures LShiftLoop(LInPlaceDone(orig, r, s, n, i), r, r, s, i, LInPlaceCarry(orig, r, s, n, i))
         == LInPlaceDone(orig, r, s, n, 0)
    decreases i
  {
    if i > 0 {
      InPlaceLShiftStep(orig, r, s, n, i);
      LShiftLoopInPlace(orig, r, s, n, i - 1);
    }
  }

  /** The file after the disjoint RSHIFT loop has written words 0 .. `i` - 1. */
  function RShiftDone(orig: seq<bv32>, sreg: nat, dreg: nat, s: bv32, n: nat, i: nat): (r: seq<bv32>)
    requires i <= n && ShiftFits(|orig|, sreg, dreg, s, n)
    ensures |r| == |orig|
  {
    Overwrite(orig, dreg, RShiftWords(orig[sreg..sreg + n], s)[..i])
  }

  /** The carry the RSHIFT loop holds at step `i`, windows disjoint. */
  function RShiftCarry(orig: seq<bv32>, sreg: nat, s: bv32, n: nat, i: nat): bv32
    requires i <= n && s < 32 && sreg + n <= |orig|
  {
    if i > 0 then CarryRight(orig[sreg + i - 1], s) else 0
  }

  /** RShiftWordsAt for a window of the register file. */
  lemma RShiftWindowAt(orig: seq<bv32>, sreg: nat, s: bv32, n: nat, i: nat)
    requires i < n && s < 32 && sreg + n <= |orig|
    ensures ShiftInRight(RShiftCarry(orig, sreg, s, n, i), orig[sreg + i], s) == RShiftWords(orig[sreg..sreg + n], s)[i]
  {
    var src := orig[sreg..sreg + n];
    assert src[i] == orig[sreg + i];
    if i > 0 {
      assert src[i - 1] == orig[sreg + i - 1];
    }
    RShiftWordsAt(src, s, i, RShiftCarry(orig, sreg, s, n, i));
  }

  /** Writing the next word of the clean right shift grows the written prefix. */
  lemma RShiftDisjointNext(orig: seq<bv32>, sreg: nat, dreg: nat, s: bv32, n: nat, i: nat)
    requires i < n && ShiftFits(|orig|, sreg, dreg, s, n)
    ensures RShiftDone(orig, sreg, dreg, s, n, i)[dreg + i := ShiftInRight(RShiftCarry(orig, sreg, s, n, i), orig[sreg + i], s)]
         == RShiftDone(orig, sreg, dreg, s, n, i + 1)
  {
    RShiftWindowAt(orig, sreg, s, n, i);
    OverwriteGrowUp(orig, dreg, RShiftWords(orig[sreg..sreg + n], s), i);
  }

  lemma RShiftDisjointStep(orig: seq<bv32>, sreg: nat, dreg: nat, s: bv32, n: nat, i: nat)
    requires i < n && ShiftFits(|orig|, sreg, dreg, s, n) && Disjoint(sreg, dreg, n)
    ensures RShiftLoop(RShiftDone(orig, sreg, dreg, s, n, i), sreg, dreg, s, n, i, RShiftCarry(orig, sreg, s, n, i))
         == RShiftLoop(RShiftDone(orig, sreg, dreg, s, n, i + 1), sreg, dreg, s, n, i + 1, RShiftCarry(orig, sreg, s, n, i + 1))
  {
    var w := ShiftInRight(RShiftCarry(orig, sreg, s, n, i), orig[sreg + i], s);
    OverwriteAt(orig, dreg, RShiftWords(orig[sreg..sreg + n], s)[..i], sreg + i);
    RShiftDisjointNext(orig, sreg, dreg, s, n, i);
    assert RShiftDone(orig, sreg, dreg, s, n, i)[dreg + i := w][sreg + i] == orig[sreg + i];
  }

  lemma {:induction false} RShiftLoopDisjoint(orig: seq<bv32>, sreg: nat, dreg: nat, s: bv32, n: nat, i: nat)
    requires i <= n && ShiftFits(|orig|, sreg, dreg, s, n) && Disjoint(sreg, dreg, n)
    ensures RShiftLoop(RShiftDone(orig, sreg, dreg, s, n, i), sreg, dreg, s, n, i, RShiftCarry(orig, sreg, s, n, i))
         == RShiftDone(orig, sreg, dreg, s, n, n)
    decreases n - i
  {
    if i < n {
      RShiftDisjointStep(orig, sreg, dreg, s, n, i);
      RShiftLoopDisjoint(orig, sreg, dreg, s, n, i + 1);
    }
  }

  /** The last word of the in-place right shift is shifted in with the carry
      out of the word before it, as that word was already rewritten. */
  lemma InPlaceRShiftLast(ws: seq<bv32>, s: bv32, carry: bv32)
    requires s < 32 && |ws| > 0
    requires carry == if |ws| > 1 then CarryRight(InPlaceRShiftWords(ws[..|ws| - 1], s)[|ws| - 2], s) else 0
    ensures InPlaceRShiftWords(ws, s) == InPlaceRShiftWords(ws[..|ws| - 1], s) + [ShiftInRight(carry, ws[|ws| - 1], s)]
  {
    CarryOfZero(s);
  }

  /** The file after the in-place RSHIFT loop has rewritten words 0 .. `i` - 1. */
  function RInPlaceDone(orig: seq<bv32>, r: nat, s: bv32, n: nat, i: nat): (out: seq<bv32>)
    requires i <= n && ShiftFits(|orig|, r, r, s, n)
    ensures |out| == |orig|
  {
    Overwrite(orig, r, InPlaceRShiftWords(orig[r..r + i], s))
  }

  /** The carry of the in-place RSHIFT loop: read back from the word just rewritten. */
  function RInPlaceCarry(orig: seq<bv32>, r: nat, s: bv32, n: nat, i: nat): bv32
    requires i <= n && s < 32 && r + n <= |orig|
  {
    if i > 0 then CarryRight(InPlaceRShiftWords(orig[r..r + i], s)[i - 1], s) else 0
  }

  /** Writing the next shifted word turns the file after `i` steps into the file after `i + 1`. */
  lemma InPlaceRShiftNext(orig: seq<bv32>, r: nat, s: bv32, n: nat, i: nat)
    requires i < n && ShiftFits(|orig|, r, r, s, n)
    ensures RInPlaceDone(orig, r, s, n, i)[r + i := ShiftInRight(RInPlaceCarry(orig, r, s, n, i), orig[r + i], s)]
         == RInPlaceDone(orig, r, s, n, i + 1)
    ensures RInPlaceCarry(orig, r, s, n, i + 1) == CarryRight(ShiftInRight(RInPlaceCarry(orig, r, s, n, i), orig[r + i], s), s)
  {
    var ws := orig[r..r + i + 1];
    assert ws[..i] == orig[r..r + i];
    InPlaceRShiftLast(ws, s, RInPlaceCarry(orig, r, s, n, i));
    OverwriteExtend(orig, r, InPlaceRShiftWords(orig[r..r + i], s), ShiftInRight(RInPlaceCarry(orig, r, s, n, i), orig[r + i], s));
  }

  lemma InPlaceRShiftStep(orig: seq<bv32>, r: nat, s: bv32, n: nat, i: nat)
    requires i < n && ShiftFits(|orig|, r, r, s, n)
    ensures RShiftLoop(RInPlaceDone(orig, r, s, n, i), r, r, s, n, i, RInPlaceCarry(orig, r, s, n, i))
         == RShiftLoop(RInPlaceDone(orig, r, s, n, i + 1), r, r, s, n, i + 1, RInPlaceCarry(orig, r, s, n, i + 1))
  {
    OverwriteAt(orig, r, InPlaceRShiftWords(orig[r..r + i], s), r + i);
    InPlaceRShiftNext(orig, r, s, n, i);
  }

  lemma {:induction false} RShiftLoopInPlace(orig: seq<bv32>, r: nat, s: bv32, n: nat, i: nat)
    requires i <= n && ShiftFits(|orig|, r, r, s, n)
    ensures RShiftLoop(RInPlaceDone(orig, r, s, n, i), r, r, s, n, i, RInPlaceCarry(orig, r, s, n, i))
         == RInPlaceDone(orig, r, s, n, n)
    decreases n - i
  {
    if i < n {
      InPlaceRShiftStep(orig, r, s, n, i);
      RShiftLoopInPlace(orig, r, s, n, i + 1);
    }
  }

  /** Before the disjoint LSHIFT loop: nothing written, no carry. */
  lemma LShiftStart(orig: seq<bv32>, sreg: nat, dreg: nat, s: bv32, n: nat)
    requires ShiftFits(|orig|, sreg, dreg, s, n)
    ensures LShiftDone(orig, sreg, dreg, s, n, n) == orig
    ensures LShiftCarry(orig, sreg, s, n, n) == 0
  {
    SliceEnds(LShiftWords(orig[sreg..sreg + n], s));
    OverwriteNothing(orig, dreg + n);
  }

  /** After the disjoint LSHIFT loop: the whole clean shift is written. */
  lemma LShiftEnd(orig: seq<bv32>, sreg: nat, dreg: nat, s: bv32, n: nat)
    requires ShiftFits(|orig|, sreg, dreg, s, n)
    ensures LShiftDone(orig, sreg, dreg, s, n, 0) == Overwrite(orig, dreg, LShiftWords(orig[sreg..sreg + n], s))
  {
    SliceEnds(LShiftWords(orig[sreg..sreg + n], s));
  }

  /** The whole LSHIFT loop with disjoint windows, from its first step. */
  lemma LShiftRunDisjoint(orig: seq<bv32>, sreg: nat, dreg: nat, s: bv32, n: nat)
    requires ShiftFits(|orig|, sreg, dreg, s, n) && Disjoint(sreg, dreg, n)
    ensures LShiftLoop(orig, sreg, dreg, s, n, 0) == Overwrite(orig, dreg, LShiftWords(orig[sreg..sreg + n], s))
  {
    LShiftStart(orig, sreg, dreg, s, n);
    LShiftEnd(orig, sreg, dreg, s, n);
    LShiftLoopDisjoint(orig, sreg, dreg, s, n, n);
  }

  /** Before the disjoint RSHIFT loop: nothing written, no carry. */
  lemma RShiftStart(orig: seq<bv32>, sreg: nat, dreg: nat, s: bv32, n: nat)
    requires ShiftFits(|orig|, sreg, dreg, s, n)
    ensures RShiftDone(orig, sreg, dreg, s, n, 0) == orig
    ensures RShiftCarry(orig, sreg, s, n, 0) == 0
  {
    SliceEnds(RShiftWords(orig[sreg..sreg + n], s));
    OverwriteNothing(orig, dreg);
  }

  /** After the disjoint RSHIFT loop: the whole clean shift is written. */
  lemma RShiftEnd(orig: seq<bv32>, sreg: nat, dreg: nat, s: bv32, n: nat)
    requires ShiftFits(|orig|, sreg, dreg, s, n)
    ensures RShiftDone(orig, sreg, dreg, s, n, n) == Overwrite(orig, dreg, RShiftWords(orig[sreg..sreg + n], s))
  {
    SliceEnds(RShiftWords(orig[sreg..sreg + n], s));
  }

  /** The whole RSHIFT loop with disjoint windows, from its first step. */
  lemma RShiftRunDisjoint(orig: seq<bv32>, sreg: nat, dreg: nat, s: bv32, n: nat)
    requires ShiftFits(|orig|, sreg, dreg, s, n) && Disjoint(sreg, dreg, n)
    ensures RShiftLoop(orig, sreg, dreg, s, n, 0, 0) == Overwrite(orig, dreg, RShiftWords(orig[sreg..sreg + n], s))
  {
    RShiftStart(orig, sreg, dreg, s, n);
    RShiftEnd(orig, sreg, dreg, s, n);
    RShiftLoopDisjoint(orig, sreg, dreg, s, n, 0);
  }

  lemma LShiftRunInPlace(orig: seq<bv32>, r: nat, s: bv32, n: nat)
    requires ShiftFits(|orig|, r, r, s, n)
    ensures LShiftLoop(orig, r, r, s, n, 0) == Overwrite(orig, r, InPlaceLShiftWords(orig[r..r + n], s))
  {
    SliceEnds(orig[r + n..r + n]);
    OverwriteNothing(orig, r + n);
    assert LInPlaceCarry(orig, r, s, n, n) == 0;
    assert LInPlaceDone(orig, r, s, n, n) == orig;
    LShiftLoopInPlace(orig, r, s, n, n);
  }

  lemma RShiftRunInPlace(orig: seq<bv32>, r: nat, s: bv32, n: nat)
    requires ShiftFits(|orig|, r, r, s, n)
    ensures RShiftLoop(orig, r, r, s, n, 0, 0) == Overwrite(orig, r, InPlaceRShiftWords(orig[r..r + n], s))
  {
    SliceEnds(orig[r..r]);
    OverwriteNothing(orig, r);
    assert RInPlaceCarry(orig, r, s, n, 0) == 0;
    assert RInPlaceDone(orig, r, s, n, 0) == orig;
    RShiftLoopInPlace(orig, r, s, n, 0);
  }

  /** The shift amount: the first word of the `data` storage. */
  function Amount(e: Bitwise): (s: bv32)
    requires e.body.ShiftBody? && |e.body.data| > 0 && e.body.data[0] < 32
    ensures s < 32
  {
    e.body.data[0]
  }

  /** LSHIFT with disjoint windows: the destination holds the clean left shift
      of the source; nothing else changes. */
  lemma LShiftEvalDisjoint(e: Bitwise, regs: seq<bv32>)
    requires e.body.ShiftBody? && e.body.dir == Left && InBounds(e, |regs|)
    requires Disjoint(e.sreg, e.dreg, Words(e.len))
    ensures Eval(e, regs) == Overwrite(regs, e.dreg, LShiftWords(Window(regs, e.sreg, Words(e.len)), Amount(e)))
  {
    LShiftRunDisjoint(regs, e.sreg, e.dreg, Amount(e), Words(e.len));
  }

  /** RSHIFT with disjoint windows: the destination holds the clean right shift
      of the source; nothing else changes. */
  lemma RShiftEvalDisjoint(e: Bitwise, regs: seq<bv32>)
    requires e.body.ShiftBody? && e.body.dir == Right && InBounds(e, |regs|)
    requires Disjoint(e.sreg, e.dreg, Words(e.len))
    ensures Eval(e, regs) == Overwrite(regs, e.dreg, RShiftWords(Window(regs, e.sreg, Words(e.len)), Amount(e)))
  {
    RShiftRunDisjoint(regs, e.sreg, e.dreg, Amount(e), Words(e.len));
  }

  /** LSHIFT with disjoint windows is the left shift of the source, read as one
      big-endian number of Words(len) words, by the amount: bit k of word i is
      the bit `amount` places to its right, zeros entering at the bottom. */
  lemma LShiftEvalIsShift(e: Bitwise, regs: seq<bv32>)
    requires e.body.ShiftBody? && e.body.dir == Left && InBounds(e, |regs|)
    requires Disjoint(e.sreg, e.dreg, Words(e.len))
    ensures IsLeftShift(Window(regs, e.sreg, Words(e.len)), Window(Eval(e, regs), e.dreg, Words(e.len)), Amount(e))
  {
    var n, s := Words(e.len), Amount(e);
    var src := Window(regs, e.sreg, n);
    LShiftEvalDisjoint(e, regs);
    WindowOfOverwrite(regs, e.dreg, LShiftWords(src, s));
    LShiftWordsIsLeftShift(src, s);
  }

  /** RSHIFT with disjoint windows is the right shift of the source as one
      number, zeros entering at the top of word 0. */
  lemma RShiftEvalIsShift(e: Bitwise, regs: seq<bv32>)
    requires e.body.ShiftBody? && e.body.dir == Right && InBounds(e, |regs|)
    requires Disjoint(e.sreg, e.dreg, Words(e.len))
    ensures IsRightShift(Window(regs, e.sreg, Words(e.len)), Window(Eval(e, regs), e.dreg, Words(e.len)), Amount(e))
  {
    var n, s := Words(e.len), Amount(e);
    var src := Window(regs, e.sreg, n);
    RShiftEvalDisjoint(e, regs);
    WindowOfOverwrite(regs, e.dreg, RShiftWords(src, s));
    RShiftWordsIsRightShift(src, s);
  }

  /** LSHIFT in place (sreg == dreg): what the code computes, each carry read
      back from a word already shifted. */
  lemma LShiftEvalInPlace(e: Bitwise, regs: seq<bv32>)
    requires e.body.ShiftBody? && e.body.dir == Left && InBounds(e, |regs|) && e.sreg == e.dreg
    ensures Eval(e, regs) == Overwrite(regs, e.dreg, InPlaceLShiftWords(Window(regs, e.sreg, Words(e.len)), Amount(e)))
  {
    LShiftRunInPlace(regs, e.sreg, Amount(e), Words(e.len));
  }

  /** RSHIFT in place (sreg == dreg): what the code computes. */
  lemma RShiftEvalInPlace(e: Bitwise, regs: seq<bv32>)
    requires e.body.ShiftBody? && e.body.dir == Right && InBounds(e, |regs|) && e.sreg == e.dreg
    ensures Eval(e, regs) == Overwrite(regs, e.dreg, InPlaceRShiftWords(Window(regs, e.sreg, Words(e.len)), Amount(e)))
  {
    RShiftRunInPlace(regs, e.sreg, Amount(e), Words(e.len));
  }

  /** In place with a value of at most four bytes (one word), LSHIFT is the
      left shift of the word. */
  lemma LShiftInPlaceOneWord(e: Bitwise, regs: seq<bv32>)
    requires e.body.ShiftBody? && e.body.dir == Left && InBounds(e, |regs|) && e.sreg == e.dreg && e.len <= 4
    ensures IsLeftShift(Window(regs, e.sreg, Words(e.len)), Window(Eval(e, regs), e.dreg, Words(e.len)), Amount(e))
  {
    var n, s := Words(e.len), Amount(e);
    var src := Window(regs, e.sreg, n);
    LShiftEvalInPlace(e, regs);
    InPlaceLShiftOneWord(src, s);
    WindowOfOverwrite(regs, e.dreg, LShiftWords(src, s));
    LShiftWordsIsLeftShift(src, s);
  }

  /** In place with a value of at most four bytes, RSHIFT is the right shift
      of the word. */
  lemma RShiftInPlaceOneWord(e: Bitwise, regs: seq<bv32>)
    requires e.body.ShiftBody? && e.body.dir == Right && InBounds(e, |regs|) && e.sreg == e.dreg && e.len <= 4
    ensures IsRightShift(Window(regs, e.sreg, Words(e.len)), Window(Eval(e, regs), e.dreg, Words(e.len)), Amount(e))
  {
    var n, s := Words(e.len), Amount(e);
    var src := Window(regs, e.sreg, n);
    RShiftEvalInPlace(e, regs);
    InPlaceRShiftOneWord(src, s);
    WindowOfOverwrite(regs, e.dreg, RShiftWords(src, s));
    RShiftWordsIsRightShift(src, s);
  }

  /** An eight-byte LSHIFT by 4 in place over the file [0, 0xF0000000]: the
      clean shift of the window is [0xF, 0], the loop leaves [0, 0]. */
  lemma LShiftInPlaceExample()
    ensures LShiftWords([0, 0xF000_0000], 4) == [0xF, 0]
    ensures Eval(Bitwise(0, 0, 8, ShiftBody(Left, [4, 0, 0, 0])), [0, 0xF000_0000]) == [0, 0]
  {
    var e := Bitwise(0, 0, 8, ShiftBody(Left, [4, 0, 0, 0]));
    var regs: seq<bv32> := [0, 0xF000_0000];
    assert Words(8) == 2;
    assert Window(regs, 0, 2) == regs;
    LShiftEvalInPlace(e, regs);
    InPlaceLShiftLosesCarry();
  }
}

=== FILE: expr.dfy ===
/** struct nft_bitwise: the state one bitwise expression keeps after init. */
module Expr {
  import opened Errors
  import opened Registers

  /** enum nft_bitwise_ops. */
  datatype Op = Bool | LShift | RShift

  /** The wire value of each op: NFT_BITWISE_BOOL = 0, LSHIFT = 1, RSHIFT = 2. */
  function OpCode(op: Op): nat
  {
    match op
    case Bool => 0
    case LShift => 1
    case RShift => 2
  }

  /** The op a stored code names, if any: the cases of the switch in init. */
  function OpOfCode(code: nat): (r: Option<Op>)
    ensures r.Some? <==> code < 3
    ensures r.Some? ==> OpCode(r.value) == code
  {
    if code == 0 then Some(Bool)
    else if code == 1 then Some(LShift)
    else if code == 2 then Some(RShift)
    else None
  }

  /** A mask or xor operand: the union of struct nft_bitwise holding either an
      immediate (the four words of a struct nft_data) or an 8-bit register
      index. The constructor is the discriminant the MASK_REG / XOR_REG flag
      records in the source. */
  datatype Operand = Immediate(data: seq<bv32>) | Register(reg: nat)

  datatype Direction = Left | Right

  /** The op-specific part: mask and xor for BOOL, the `data` storage (whose
      first word is the shift amount) for the two shifts. */
  datatype Body =
    | BoolBody(mask: Operand, xor: Operand)
    | ShiftBody(dir: Direction, data: seq<bv32>)

  /** One bitwise expression: source and destination register (32-bit word
      indices), byte length, and the op-specific part. */
  datatype Bitwise = Bitwise(sreg: nat, dreg: nat, len: nat, body: Body)

  function OpOf(e: Bitwise): Op
  {
    match e.body
    case BoolBody(_, _) => Bool
    case ShiftBody(Left, _) => LShift
    case ShiftBody(Right, _) => RShift
  }

  /** enum nft_bitwise_flags. */
  const MASK_REG: bv32 := 1
  const XOR_REG: bv32 := 2

  /** The flag word the source keeps beside the unions: each flag is set exactly
      when its operand is in register form, and the two flags are distinct bits. */
  function Flags(b: Body): (f: bv32)
    ensures (f & MASK_REG != 0) <==> (b.BoolBody? && b.mask.Register?)
    ensures (f & XOR_REG != 0) <==> (b.BoolBody? && b.xor.Register?)
    ensures f & !(MASK_REG | XOR_REG) == 0
  {
    match b
    case ShiftBody(_, _) => 0
    case BoolBody(mask, xor) =>
      (if mask.Register? then MASK_REG else 0) | (if xor.Register? then XOR_REG else 0)
  }

  /** Words in a struct nft_data (16 bytes). */
  const DATA_WORDS: nat := 4

  /** The storage of a decoded immediate of `len` bytes: four words, zero past
      the value. */
  predicate IsStorage(d: seq<bv32>, len: nat)
  {
    && |d| == DATA_WORDS
    && len <= 4 * DATA_WORDS
    && forall j :: Words(len) <= j < DATA_WORDS ==> d[j] == 0
  }

  /** The shape of every expression init accepts, whatever the register file:
      8-bit register fields, a u8 length, immediates held in their storage, and
      a 4-byte shift amount below 32. */
  predicate WellFormed(e: Bitwise)
  {
    && e.sreg < 256 && e.dreg < 256 && e.len <= 255
    && match e.body
       case BoolBody(mask, xor) =>
         && (mask.Immediate? ==> IsStorage(mask.data, e.len))
         && (mask.Register? ==> mask.reg < 256)
         && (xor.Immediate? ==> IsStorage(xor.data, e.len))
         && (xor.Register? ==> xor.reg < 256)
       case ShiftBody(_, data) =>
         IsStorage(data, 4) && data[0] < 32
  }

  /** An operand the evaluation may read for `len` bytes. */
  predicate OperandLoads(rc: RegisterContract, o: Operand, len: nat)
  {
    o.Register? ==> rc.load(o.reg, len).Pass?
  }

  /** What init establishes about an expression under a register contract. */
  predicate Valid(rc: RegisterContract, e: Bitwise)
  {
    && WellFormed(e)
    && rc.load(e.sreg, e.len).Pass?
    && rc.store(e.dreg, e.len).Pass?
    && (e.body.BoolBody? ==> OperandLoads(rc, e.body.mask, e.len) && OperandLoads(rc, e.body.xor, e.len))
  }

  /** An operand can supply `n` words from a file of `size` words. */
  predicate OperandInBounds(o: Operand, n: nat, size: nat)
  {
    match o
    case Immediate(d) => n <= |d|
    case Register(r) => r + n <= size
  }

  /** Every word the evaluation reads or writes lies in a file of `size` words,
      and the shift amount is below 32. */
  predicate InBounds(e: Bitwise, size: nat)
  {
    var n := Words(e.len);
    && e.sreg + n <= size
    && e.dreg + n <= size
    && match e.body
       case BoolBody(mask, xor) => OperandInBounds(mask, n, size) && OperandInBounds(xor, n, size)
       case ShiftBody(_, data) => |data| > 0 && data[0] < 32
  }

  /** An expression init accepted under a sound contract never reaches outside
      the register file, so its evaluation needs no run-time check. */
  lemma ValidInBounds(rc: RegisterContract, e: Bitwise)
    requires Sound(rc) && Valid(rc, e)
    ensures InBounds(e, rc.capacity)
  {
    assert rc.load(e.sreg, e.len).Pass?;
    assert rc.store(e.dreg, e.len).Pass?;
    if e.body.BoolBody? {
      var mask, xor := e.body.mask, e.body.xor;
      if mask.Register? {
        assert rc.load(mask.reg, e.len).Pass?;
      }
      if xor.Register? {
        assert rc.load(xor.reg, e.len).Pass?;
      }
    }
  }
}

=== FILE: init.dfy ===
/** nft_bitwise_init, nft_bitwise_init_bool and nft_bitwise_init_shift:
    building an expression from its attribute table, or the errno that refuses
    the table, together with the ledger of the immediates the attempt decoded
    and the ones it released again. */
module BitwiseInit {
  import opened Errors
  import opened Registers
  import opened Expr
  import opened Attributes

  /** The three places a decoded immediate is kept: the mask, xor and data
      storage of struct nft_bitwise. */
  datatype Slot = MaskSlot | XorSlot | DataSlot

  /** One successful nft_data_init: where the datum went and the type that a
      later nft_data_release is called with. */
  datatype Hold = Hold(slot: Slot, kind: DataType)

  /** One init attempt: the expression or the errno, the holds it took in
      order, and the holds it gave back (its nft_data_release calls) in order. */
  datatype Outcome = Outcome(result: Result<Bitwise>, acquired: seq<Hold>, released: seq<Hold>)

  /** An early return: an errno, nothing decoded. */
  function Refuse(err: Errno): (o: Outcome)
    ensures o.result == Err(err) && o.acquired == [] && o.released == []
  {
    Outcome(Err(err), [], [])
  }

  /** U8_MAX, the bound nft_parse_u32_check puts on LEN. */
  const U8_MAX: nat := 255

  /** What an `enum ... :8` bitfield keeps of the value stored into it. */
  function Reg8(v: nat): (b: nat)
    ensures b < 256
    ensures v < 256 ==> b == v
  {
    v % 256
  }

  /** nft_parse_register, stored into an 8-bit register field. */
  function ParseRegister(rc: RegisterContract, v: nat): (r: nat)
    ensures r < 256
  {
    Reg8(rc.parse(v))
  }

  /** The op code init switches on: OP stored into the 8-bit `op` field, BOOL
      when OP is absent. */
  function OpField(a: Attrs): (code: nat)
    ensures code < 256
    ensures a.op.None? ==> code == OpCode(Bool)
  {
    if a.op.Some? then Reg8(a.op.value) else OpCode(Bool)
  }

  /** The immediates a valid expression owns, each a value. */
  function Holds(e: Bitwise): seq<Hold>
  {
    match e.body
    case BoolBody(mask, xor) =>
      (if mask.Immediate? then [Hold(MaskSlot, Value)] else [])
      + (if xor.Immediate? then [Hold(XorSlot, Value)] else [])
    case ShiftBody(_, _) => [Hold(DataSlot, Value)]
  }

  /** Every release gives back something taken, and nothing is given back twice. */
  predicate Ledgered(o: Outcome)
  {
    && (forall h :: h in o.released ==> h in o.acquired)
    && (forall i, j :: 0 <= i < j < |o.released| ==> o.released[i] != o.released[j])
  }

  /** What a refused init leaves held: only ever a mask value. */
  predicate OnlyMaskValueKept(o: Outcome)
  {
    o.result.Err? ==> forall h :: h in o.acquired && h !in o.released ==> h == Hold(MaskSlot, Value)
  }

  /** The xor half of nft_bitwise_init_bool, the mask already settled; `held`
      is the mask's hold when the mask is an immediate. A failed xor decode
      releases the mask (err1), a rejected xor immediate releases the xor and
      then the mask (err2), and a refused xor register returns at once. */
  function InitXor(rc: RegisterContract, a: Attrs, sreg: nat, dreg: nat, len: nat, mask: Operand, held: seq<Hold>): (o: Outcome)
    requires a.xor.Some? || a.xreg.Some?
    requires held == if mask.Immediate? then [Hold(MaskSlot, Value)] else []
    ensures o.result.Ok? ==> o.result.value.sreg == sreg && o.result.value.dreg == dreg && o.result.value.len == len
    ensures o.result.Ok? ==> o.result.value.body.BoolBody? && o.result.value.body.mask == mask
    ensures o.result.Ok? ==> (o.result.value.body.xor.Register? <==> a.xor.None?)
    ensures o.result.Ok? ==> o.acquired == Holds(o.result.value) && o.released == []
    ensures Ledgered(o) && OnlyMaskValueKept(o)
    // err1: the mask released; err2: the xor released, then the mask
    ensures a.xor.Some? && DataInit(a.xor.value).Err? ==> o == Outcome(Err(DataInit(a.xor.value).error), held, held)
    ensures a.xor.Some? && DataInit(a.xor.value).Ok? && !ImmediateAccepted(a.xor.value, len) ==>
              o == Outcome(Err(EINVAL), held + [Hold(XorSlot, a.xor.value.kind)], [Hold(XorSlot, a.xor.value.kind)] + held)
    ensures a.xor.None? && rc.load(ParseRegister(rc, a.xreg.value), len).Fail? ==>
              o == Outcome(Err(rc.load(ParseRegister(rc, a.xreg.value), len).error), held, [])
  {
    if a.xor.Some? then
      match DataInit(a.xor.value)
      case Err(err) => Outcome(Err(err), held, held)
      case Ok(x) =>
        var h := Hold(XorSlot, x.desc.kind);
        if x.desc.kind != Value || x.desc.len != len then Outcome(Err(EINVAL), held + [h], [h] + held)
        else Outcome(Ok(Bitwise(sreg, dreg, len, BoolBody(mask, Immediate(x.storage)))), held + [h], [])
    else
      var r := ParseRegister(rc, a.xreg.value);
      match rc.load(r, len)
      case Fail(err) => Outcome(Err(err), held, [])
      case Pass => Outcome(Ok(Bitwise(sreg, dreg, len, BoolBody(mask, Register(r)))), held, [])
  }

  /** nft_bitwise_init_bool. */
  function InitBool(rc: RegisterContract, a: Attrs, sreg: nat, dreg: nat, len: nat): (o: Outcome)
    ensures a.data.Some? ==> o == Refuse(EINVAL)
    ensures a.mask.Some? == a.mreg.Some? || a.xor.Some? == a.xreg.Some? ==> o == Refuse(EINVAL)
    ensures o.result.Ok? ==> o.result.value.sreg == sreg && o.result.value.dreg == dreg && o.result.value.len == len
    ensures o.result.Ok? ==> o.result.value.body.BoolBody?
    ensures o.result.Ok? ==> (o.result.value.body.mask.Register? <==> a.mask.None?)
    ensures o.result.Ok? ==> (o.result.value.body.xor.Register? <==> a.xor.None?)
    ensures o.result.Ok? ==> o.acquired == Holds(o.result.value) && o.released == []
    ensures Ledgered(o) && OnlyMaskValueKept(o)
    // the mask's refusals, the table's shape being right
    ensures BoolShape(a) && a.mask.Some? && DataInit(a.mask.value).Err? ==> o == Refuse(DataInit(a.mask.value).error)
    ensures BoolShape(a) && a.mask.Some? && DataInit(a.mask.value).Ok? && !ImmediateAccepted(a.mask.value, len) ==>
              o.result == Err(EINVAL) && o.released == o.acquired
    ensures BoolShape(a) && a.mreg.Some? && rc.load(ParseRegister(rc, a.mreg.value), len).Fail? ==>
              o == Refuse(rc.load(ParseRegister(rc, a.mreg.value), len).error)
    // the xor's refusals, the mask being accepted
    ensures BoolShape(a) && OperandAccepted(rc, a.mask, a.mreg, len) && a.xor.Some? && DataInit(a.xor.value).Err? ==>
              o == Outcome(Err(DataInit(a.xor.value).error), MaskHeld(a), MaskHeld(a))
    ensures (BoolShape(a) && OperandAccepted(rc, a.mask, a.mreg, len) && a.xor.Some? && DataInit(a.xor.value).Ok?
             && !ImmediateAccepted(a.xor.value, len)) ==>
              o == Outcome(Err(EINVAL), MaskHeld(a) + [Hold(XorSlot, a.xor.value.kind)], [Hold(XorSlot, a.xor.value.kind)] + MaskHeld(a))
    ensures BoolShape(a) && OperandAccepted(rc, a.mask, a.mreg, len) && a.xreg.Some? && rc.load(ParseRegister(rc, a.xreg.value), len).Fail? ==>
              o == Outcome(Err(rc.load(ParseRegister(rc, a.xreg.value), len).error), MaskHeld(a), [])
  {
    if a.data.Some? then Refuse(EINVAL)
    else if a.mask.Some? == a.mreg.Some? then Refuse(EINVAL)
    else if a.xor.Some? == a.xreg.Some? then Refuse(EINVAL)
    else if a.mask.Some? then
      match DataInit(a.mask.value)
      case Err(err) => Refuse(err)
      case Ok(m) =>
        var h := Hold(MaskSlot, m.desc.kind);
        if m.desc.kind != Value || m.desc.len != len then Outcome(Err(EINVAL), [h], [h])
        else InitXor(rc, a, sreg, dreg, len, Immediate(m.storage), [h])
    else
      var r := ParseRegister(rc, a.mreg.value);
      match rc.load(r, len)
      case Fail(err) => Refuse(err)
      case Pass => InitXor(rc, a, sreg, dreg, len, Register(r), [])
  }

  /** nft_bitwise_init_shift: MASK and XOR are refused (MREG and XREG are not
      looked at), DATA must decode to a 4-byte value below 32, and a decoded
      DATA that is refused is released. */
  function InitShift(a: Attrs, sreg: nat, dreg: nat, len: nat, dir: Direction): (o: Outcome)
    ensures a.mask.Some? || a.xor.Some? || a.data.None? ==> o == Refuse(EINVAL)
    ensures o.result.Ok? ==> o.result.value.body.ShiftBody? && o.result.value == Bitwise(sreg, dreg, len, ShiftBody(dir, o.result.value.body.data))
    ensures o.result.Ok? ==> IsStorage(o.result.value.body.data, 4) && o.result.value.body.data[0] < 32
    ensures o.result.Ok? ==> o.acquired == Holds(o.result.value) && o.released == []
    ensures o.result.Err? ==> o.released == o.acquired
    ensures Ledgered(o)
    ensures a.mask.None? && a.xor.None? && a.data.Some? && DataInit(a.data.value).Err? ==> o == Refuse(DataInit(a.data.value).error)
    ensures a.mask.None? && a.xor.None? && a.data.Some? && DataInit(a.data.value).Ok? && !ShiftAccepted(a) ==>
              o.result == Err(EINVAL) && o.acquired == [Hold(DataSlot, a.data.value.kind)]
  {
    if a.mask.Some? || a.xor.Some? then Refuse(EINVAL)
    else if a.data.None? then Refuse(EINVAL)
    else
      match DataInit(a.data.value)
      case Err(err) => Refuse(err)
      case Ok(d) =>
        var h := Hold(DataSlot, d.desc.kind);
        if d.desc.kind != Value || d.desc.len != 4 || d.storage[0] >= 32 then Outcome(Err(EINVAL), [h], [h])
        else Outcome(Ok(Bitwise(sreg, dreg, len, ShiftBody(dir, d.storage))), [h], [])
  }

  /** nft_bitwise_init: the header checks in order, then the op's own init. */
  function Init(rc: RegisterContract, a: Attrs): (o: Outcome)
    ensures a.sreg.None? || a.dreg.None? || a.len.None? ==> o == Refuse(EINVAL)
    ensures a.sreg.Some? && a.dreg.Some? && a.len.Some? && a.len.value > U8_MAX ==> o == Refuse(ERANGE)
    ensures o.result.Ok? ==> Valid(rc, o.result.value)
    ensures o.result.Ok? ==> o.acquired == Holds(o.result.value) && o.released == []
    ensures Ledgered(o) && OnlyMaskValueKept(o)
  {
    if a.sreg.None? || a.dreg.None? || a.len.None? then Refuse(EINVAL)
    else if a.len.value > U8_MAX then Refuse(ERANGE)
    else
      var len := a.len.value;
      var sreg := ParseRegister(rc, a.sreg.value);
      match rc.load(sreg, len)
      case Fail(err) => Refuse(err)
      case Pass =>
        var dreg := ParseRegister(rc, a.dreg.value);
        match rc.store(dreg, len)
        case Fail(err) => Refuse(err)
        case Pass =>
          match OpOfCode(OpField(a))
          case None => Refuse(EOPNOTSUPP)
          case Some(Bool) => InitBool(rc, a, sreg, dreg, len)
          case Some(LShift) => InitShift(a, sreg, dreg, len, Left)
          case Some(RShift) => InitShift(a, sreg, dreg, len, Right)
  }

  // ---------------------------------------------------------------- the validation matrix

  /** The header init checks first: SREG, DREG and LEN present, LEN at most
      U8_MAX, the source loadable and the destination storable for LEN bytes. */
  predicate HeaderAccepted(rc: RegisterContract, a: Attrs)
  {
    && a.sreg.Some? && a.dreg.Some? && a.len.Some? && a.len.value <= U8_MAX
    && rc.load(ParseRegister(rc, a.sreg.value), a.len.value).Pass?
    && rc.store(ParseRegister(rc, a.dreg.value), a.len.value).Pass?
  }

  /** A nested immediate init keeps: it decodes to a value of exactly `len` bytes. */
  predicate ImmediateAccepted(nd: NestedData, len: nat)
  {
    nd.Data? && nd.kind == Value && nd.len == len && len <= DATA_SIZE
  }

  /** The shape BOOL asks of the table before it decodes anything: no DATA,
      and each operand given in exactly one form. */
  predicate BoolShape(a: Attrs)
  {
    a.data.None? && a.mask.Some? != a.mreg.Some? && a.xor.Some? != a.xreg.Some?
  }

  /** What an accepted mask leaves held: its value when MASK was given. */
  function MaskHeld(a: Attrs): (h: seq<Hold>)
    ensures |h| <= 1 && (h == [] <==> a.mask.None?)
  {
    if a.mask.Some? then [Hold(MaskSlot, Value)] else []
  }

  /** A BOOL operand given in exactly one form, and that form usable: an
      immediate of `len` bytes, or a register loadable for `len` bytes. */
  predicate OperandAccepted(rc: RegisterContract, imm: Option<NestedData>, reg: Option<nat>, len: nat)
  {
    || (imm.Some? && reg.None? && ImmediateAccepted(imm.value, len))
    || (imm.None? && reg.Some? && rc.load(ParseRegister(rc, reg.value), len).Pass?)
  }

  /** What BOOL asks of the table beyond the header. */
  predicate BoolAccepted(rc: RegisterContract, a: Attrs, len: nat)
  {
    a.data.None? && OperandAccepted(rc, a.mask, a.mreg, len) && OperandAccepted(rc, a.xor, a.xreg, len)
  }

  /** What a shift asks of the table beyond the header: no MASK or XOR, and a
      4-byte DATA value whose first word is below 32. */
  predicate ShiftAccepted(a: Attrs)
  {
    && a.mask.None? && a.xor.None? && a.data.Some?
    && ImmediateAccepted(a.data.value, 4)
    && StorageWord(a.data.value.value, 4, 0) < 32
  }

  /** The attribute tables init accepts, field by field, in no particular order. */
  predicate Acceptable(rc: RegisterContract, a: Attrs)
  {
    && HeaderAccepted(rc, a)
    && OpField(a) < 3
    && if OpField(a) == OpCode(Bool) then BoolAccepted(rc, a, a.len.value) else ShiftAccepted(a)
  }

  lemma InitBoolAccepts(rc: RegisterContract, a: Attrs, sreg: nat, dreg: nat, len: nat)
    ensures InitBool(rc, a, sreg, dreg, len).result.Ok? <==> BoolAccepted(rc, a, len)
  {
  }

  lemma InitShiftAccepts(a: Attrs, sreg: nat, dreg: nat, len: nat, dir: Direction)
    ensures InitShift(a, sreg, dreg, len, dir).result.Ok? <==> ShiftAccepted(a)
  {
  }

  /** Init succeeds exactly on the acceptable tables: the sequence of checks
      in the source and the field-by-field matrix agree in both directions. */
  lemma InitAccepts(rc: RegisterContract, a: Attrs)
    ensures Init(rc, a).result.Ok? <==> Acceptable(rc, a)
  {
    if HeaderAccepted(rc, a) {
      var len := a.len.value;
      var sreg, dreg := ParseRegister(rc, a.sreg.value), ParseRegister(rc, a.dreg.value);
      InitBoolAccepts(rc, a, sreg, dreg, len);
      InitShiftAccepts(a, sreg, dreg, len, Left);
      InitShiftAccepts(a, sreg, dreg, len, Right);
    }
  }

  /** The errors of the header, in the order the source checks them: a missing
      field, then LEN, then the source register, the destination register and
      the op code. */
  lemma InitHeaderErrors(rc: RegisterContract, a: Attrs)
    requires a.sreg.Some? && a.dreg.Some? && a.len.Some? && a.len.value <= U8_MAX
    ensures rc.load(ParseRegister(rc, a.sreg.value), a.len.value).Fail? ==>
              Init(rc, a) == Refuse(rc.load(ParseRegister(rc, a.sreg.value), a.len.value).error)
    ensures rc.load(ParseRegister(rc, a.sreg.value), a.len.value).Pass? && rc.store(ParseRegister(rc, a.dreg.value), a.len.value).Fail? ==>
              Init(rc, a) == Refuse(rc.store(ParseRegister(rc, a.dreg.value), a.len.value).error)
    ensures HeaderAccepted(rc, a) && OpField(a) >= 3 ==> Init(rc, a) == Refuse(EOPNOTSUPP)
  {
  }

  /** What an accepted table becomes: the parsed registers, LEN, the op the
      OP field names, and each BOOL operand in the form it was given, the
      register form exactly when MREG or XREG was the one present. */
  lemma InitFields(rc: RegisterContract, a: Attrs)
    requires Init(rc, a).result.Ok?
    ensures var e := Init(rc, a).result.value;
      && a.sreg.Some? && a.dreg.Some? && a.len.Some?
      && e.sreg == ParseRegister(rc, a.sreg.value)
      && e.dreg == ParseRegister(rc, a.dreg.value)
      && e.len == a.len.value
      && OpCode(OpOf(e)) == OpField(a)
      && (e.body.BoolBody? ==> (e.body.mask.Register? <==> a.mreg.Some?) && (e.body.xor.Register? <==> a.xreg.Some?))
      && (e.body.BoolBody? && e.body.mask.Register? ==> e.body.mask.reg == ParseRegister(rc, a.mreg.value))
      && (e.body.BoolBody? && e.body.xor.Register? ==> e.body.xor.reg == ParseRegister(rc, a.xreg.value))
  {
    InitAccepts(rc, a);
  }

  /** OP absent and OP = BOOL build the same expression. */
  lemma OpDefaultsToBool(rc: RegisterContract, a: Attrs)
    ensures Init(rc, a.(op := None)) == Init(rc, a.(op := Some(OpCode(Bool))))
  {
  }

  /** Only the low 8 bits of OP count: the value is stored into the 8-bit `op`
      field before the switch, so OP = 256 + c acts as OP = c (256 is BOOL). */
  lemma OpTruncated(rc: RegisterContract, a: Attrs, c: nat)
    ensures Init(rc, a.(op := Some(256 + c))) == Init(rc, a.(op := Some(c)))
  {
    assert (256 + c) % 256 == c % 256;
  }

  /** A shift does not look at MREG or XREG. */
  lemma ShiftIgnoresRegisterForms(rc: RegisterContract, a: Attrs, mreg: Option<nat>, xreg: Option<nat>)
    requires OpField(a) == OpCode(LShift) || OpField(a) == OpCode(RShift)
    ensures Init(rc, a.(mreg := mreg, xreg := xreg)) == Init(rc, a)
  {
    var b := a.(mreg := mreg, xreg := xreg);
    assert OpField(b) == OpField(a);
    assert b.sreg == a.sreg && b.dreg == a.dreg && b.len == a.len;
    forall sreg: nat, dreg: nat, len: nat, dir: Direction
      ensures InitShift(b, sreg, dreg, len, dir) == InitShift(a, sreg, dreg, len, dir)
    {
      assert b.mask == a.mask && b.xor == a.xor && b.data == a.data;
    }
  }

  /** When the xor immediate cannot be decoded after the mask immediate was,
      the mask is released, once. */
  lemma XorDecodeFailureReleasesMask(rc: RegisterContract, a: Attrs)
    requires HeaderAccepted(rc, a) && OpField(a) == OpCode(Bool) && a.data.None?
    requires a.mreg.None? && a.xreg.None? && a.mask.Some? && a.xor.Some?
    requires ImmediateAccepted(a.mask.value, a.len.value) && DataInit(a.xor.value).Err?
    ensures Init(rc, a) == Outcome(Err(DataInit(a.xor.value).error), [Hold(MaskSlot, Value)], [Hold(MaskSlot, Value)])
  {
  }

  /** When the xor immediate decodes but is not a value of LEN bytes after
      the mask immediate was decoded, the xor is released and then the mask
      (err2 falling through to err1). */
  lemma XorMismatchReleasesBoth(rc: RegisterContract, a: Attrs)
    requires HeaderAccepted(rc, a) && OpField(a) == OpCode(Bool) && a.data.None?
    requires a.mreg.None? && a.xreg.None? && a.mask.Some? && a.xor.Some?
    requires ImmediateAccepted(a.mask.value, a.len.value)
    requires DataInit(a.xor.value).Ok? && !ImmediateAccepted(a.xor.value, a.len.value)
    ensures var x := Hold(XorSlot, a.xor.value.kind);
      Init(rc, a) == Outcome(Err(EINVAL), [Hold(MaskSlot, Value), x], [x, Hold(MaskSlot, Value)])
  {
  }

  /** When XREG is refused after a mask immediate was decoded, init returns
      at once and the mask is not released. It is a value, whose release is
      a no-op, so nothing leaks. */
  lemma XregRefusalKeepsMask(rc: RegisterContract, a: Attrs)
    requires HeaderAccepted(rc, a) && OpField(a) == OpCode(Bool) && a.data.None?
    requires a.mreg.None? && a.mask.Some? && a.xor.None? && a.xreg.Some?
    requires ImmediateAccepted(a.mask.value, a.len.value)
    requires rc.load(ParseRegister(rc, a.xreg.value), a.len.value).Fail?
    ensures Init(rc, a).result.Err?
    ensures Init(rc, a).acquired == [Hold(MaskSlot, Value)] && Init(rc, a).released == []
  {
  }
}

=== FILE: loops.dfy ===
/** nft_bitwise_eval as the kernel writes it: three loops over one array of
    32-bit registers, `src` and `dst` being offsets into the same array. Each
    loop is shown to compute the recursive definition in the Eval module, so
    everything proved there holds of these loops, aliasing included. */
module Loops {
  import opened Registers
  import opened Expr
  import opened WordShift
  import opened BitwiseEval

  /** Word `i` of an operand, read from the array as it stands. */
  method FetchFrom(o: Operand, a: array<bv32>, i: nat) returns (w: bv32)
    requires OperandInBounds(o, i + 1, a.Length)
    ensures w == Fetch(o, a[..], i)
  {
    match o {
      case Immediate(d) => w := d[i];
      case Register(r) => w := a[r + i];
    }
  }

  /** nft_bitwise_eval_bool: dst[i] = (src[i] & mask[i]) ^ xor[i], i upwards. */
  method BoolInto(a: array<bv32>, sreg: nat, dreg: nat, mask: Operand, xor: Operand, n: nat)
    requires BoolFits(a.Length, sreg, dreg, mask, xor, n)
    modifies a
    ensures a[..] == BoolLoop(old(a[..]), sreg, dreg, mask, xor, n, 0)
  {
    var i: nat := 0;
    while i < n
      invariant i <= n
      invariant BoolLoop(a[..], sreg, dreg, mask, xor, n, i) == BoolLoop(old(a[..]), sreg, dreg, mask, xor, n, 0)
    {
      var m := FetchFrom(mask, a, i);
      var x := FetchFrom(xor, a, i);
      a[dreg + i] := MaskXor(a[sreg + i], m, x);
      i := i + 1;
    }
  }

  /** nft_bitwise_eval_lshift: i downwards from the last word; the carry is
      taken from src[i - 1] after dst[i - 1] was written. */
  method LShiftInto(a: array<bv32>, sreg: nat, dreg: nat, s: bv32, n: nat)
    requires ShiftFits(a.Length, sreg, dreg, s, n)
    modifies a
    ensures a[..] == LShiftLoop(old(a[..]), sreg, dreg, s, n, 0)
  {
    var carry: bv32 := 0;
    var i: nat := n;
    while i > 0
      invariant i <= n
      invariant LShiftLoop(a[..], sreg, dreg, s, i, carry) == LShiftLoop(old(a[..]), sreg, dreg, s, n, 0)
    {
      a[dreg + i - 1] := ShiftInLeft(a[sreg + i - 1], s, carry);
      carry := CarryLeft(a[sreg + i - 1], s);
      i := i - 1;
    }
  }

  /** nft_bitwise_eval_rshift: i upwards from word 0; the carry is taken from
      src[i] after dst[i] was written. */
  method RShiftInto(a: array<bv32>, sreg: nat, dreg: nat, s: bv32, n: nat)
    requires ShiftFits(a.Length, sreg, dreg, s, n)
    modifies a
    ensures a[..] == RShiftLoop(old(a[..]), sreg, dreg, s, n, 0, 0)
  {
    var carry: bv32 := 0;
    var i: nat := 0;
    while i < n
      invariant i <= n
      invariant RShiftLoop(a[..], sreg, dreg, s, n, i, carry) == RShiftLoop(old(a[..]), sreg, dreg, s, n, 0, 0)
    {
      a[dreg + i] := ShiftInRight(carry, a[sreg + i], s);
      carry := CarryRight(a[sreg + i], s);
      i := i + 1;
    }
  }

  /** nft_bitwise_eval on a register file held in an array: the result is the
      evaluation the Eval module defines, so the destination window holds the
      masked xor or the shift proved there and every other register is kept. */
  method Evaluate(e: Bitwise, regs: seq<bv32>) returns (out: seq<bv32>)
    requires InBounds(e, |regs|)
    ensures out == Eval(e, regs)
    ensures Frame(regs, out, e.dreg, e.dreg + Words(e.len))
  {
    var a := new bv32[|regs|](k requires 0 <= k < |regs| => regs[k]);
    assert a[..] == regs;
    var n := Words(e.len);
    match e.body {
      case BoolBody(mask, xor) => BoolInto(a, e.sreg, e.dreg, mask, xor, n);
      case ShiftBody(Left, data) => LShiftInto(a, e.sreg, e.dreg, data[0], n);
      case ShiftBody(Right, data) => RShiftInto(a, e.sreg, e.dreg, data[0], n);
    }
    out := a[..];
    EvalFrame(e, regs);
  }
}

=== FILE: offload.dfy ===
/** nft_bitwise_offload: whether a BOOL expression can be handed to hardware
    as a plain mask on one offload register, and what it installs there. */
module BitwiseOffload {
  import opened Errors
  import opened Registers
  import opened Expr
  import opened BitwiseEval

  /** struct nft_offload_reg, as far as the expression touches it: the byte
      length of the value and the mask (a struct nft_data, four words). */
  datatype OffloadReg = OffloadReg(len: nat, mask: seq<bv32>)

  /** static struct nft_data zero. */
  const ZERO: seq<bv32> := [0, 0, 0, 0]

  /** The four words of a mask or xor union: the immediate's storage or, in
      register form, the 8-bit register field in the low byte of the first
      word (the layout on a little-endian machine), every other byte still
      zero from allocation. */
  function UnionImage(o: Operand): (w: seq<bv32>)
    requires o.Immediate? ==> |o.data| == DATA_WORDS
    ensures |w| == DATA_WORDS
    ensures o.Immediate? ==> w == o.data
    ensures o.Register? ==> (w == ZERO <==> o.reg % 256 == 0)
  {
    match o
    case Immediate(d) => d
    case Register(r) => [(r % 256) as bv32, 0, 0, 0]
  }

  /** The offload table after the mask of register `dreg` was replaced. */
  function InstallMask(regs: seq<OffloadReg>, dreg: nat, mask: seq<bv32>): (out: seq<OffloadReg>)
    requires dreg < |regs|
    ensures |out| == |regs| && out[dreg] == OffloadReg(regs[dreg].len, mask)
    ensures forall k :: 0 <= k < |regs| && k != dreg ==> out[k] == regs[k]
  {
    regs[dreg := regs[dreg].(mask := mask)]
  }

  /** nft_bitwise_offload as written: a BOOL in place whose xor union is all
      zero bytes and whose length matches the register's is offloaded by
      copying the mask union, whatever form the operands are in. */
  function Offload(e: Bitwise, regs: seq<OffloadReg>): (r: Result<seq<OffloadReg>>)
    requires WellFormed(e) && e.dreg < |regs|
    ensures r.Err? ==> r.error == EOPNOTSUPP
    ensures r.Ok? <==> && e.body.BoolBody? && UnionImage(e.body.xor) == ZERO
                       && e.sreg == e.dreg && e.len == regs[e.dreg].len
    ensures r.Ok? ==> r.value == InstallMask(regs, e.dreg, UnionImage(e.body.mask))
  {
    if !e.body.BoolBody? then Err(EOPNOTSUPP)
    else if UnionImage(e.body.xor) != ZERO || e.sreg != e.dreg || e.len != regs[e.dreg].len then Err(EOPNOTSUPP)
    else Ok(InstallMask(regs, e.dreg, UnionImage(e.body.mask)))
  }

  /** Offload with register-form operands refused as well: the unions then
      hold register indices, not a mask and an xor value. */
  function OffloadChecked(e: Bitwise, regs: seq<OffloadReg>): (r: Result<seq<OffloadReg>>)
    requires WellFormed(e) && e.dreg < |regs|
    ensures r.Err? ==> r.error == EOPNOTSUPP
    ensures r.Ok? <==> Flags(e.body) == 0 && Offload(e, regs).Ok?
    ensures r.Ok? ==> r == Offload(e, regs)
  {
    if e.body.BoolBody? && Flags(e.body) != 0 then Err(EOPNOTSUPP)
    else Offload(e, regs)
  }

  /** What the hardware applies once a mask is installed: each word ANDed
      with the mask. */
  function MaskWords(ws: seq<bv32>, mask: seq<bv32>): (r: seq<bv32>)
    requires |ws| <= |mask|
    ensures |r| == |ws|
  {
    seq(|ws|, i requires 0 <= i < |ws| => ws[i] & mask[i])
  }

  lemma MaskXorZero(w: bv32, m: bv32)
    ensures MaskXor(w, m, 0) == w & m
  {
  }

  /** The words the hardware computes with the installed mask are the words
      the BOOL loop computes, when the xor is zero and the mask an immediate. */
  lemma MaskWordsAgree(regs: seq<bv32>, r: nat, mask: seq<bv32>, n: nat)
    requires r + n <= |regs| && n <= |mask| && n <= DATA_WORDS
    ensures MaskXorWords(regs, r, Immediate(mask), Immediate(ZERO), n) == MaskWords(Window(regs, r, n), mask)
  {
    var a, b := MaskXorWords(regs, r, Immediate(mask), Immediate(ZERO), n), MaskWords(Window(regs, r, n), mask);
    forall i | 0 <= i < n
      ensures a[i] == b[i]
    {
      MaskXorZero(regs[r + i], mask[i]);
    }
  }

  /** Whenever the checked offload accepts, the hardware's masking of the
      destination register gives, on every register file, exactly what
      evaluating the expression gives. */
  lemma OffloadCheckedAgrees(e: Bitwise, oregs: seq<OffloadReg>, regs: seq<bv32>)
    requires WellFormed(e) && e.dreg < |oregs| && InBounds(e, |regs|)
    requires OffloadChecked(e, oregs).Ok?
    ensures Eval(e, regs) == Overwrite(regs, e.dreg, MaskWords(Window(regs, e.dreg, Words(e.len)), OffloadChecked(e, oregs).value[e.dreg].mask))
  {
    var n := Words(e.len);
    var mask, xor := e.body.mask, e.body.xor;
    assert mask.Immediate? && xor.Immediate?;
    assert xor == Immediate(ZERO);
    BoolEval(e, regs);
    MaskWordsAgree(regs, e.dreg, mask.data, n);
  }

  /** On expressions with both operands immediate the check changes nothing. */
  lemma OffloadCheckedOnImmediates(e: Bitwise, oregs: seq<OffloadReg>)
    requires WellFormed(e) && e.dreg < |oregs| && e.body.BoolBody?
    requires e.body.mask.Immediate? && e.body.xor.Immediate?
    ensures OffloadChecked(e, oregs) == Offload(e, oregs)
  {
  }

  /** An offload table whose entries 0 to 5 all describe a 4-byte value with
      no mask yet. */
  const OREGS: seq<OffloadReg> := [OffloadReg(4, ZERO), OffloadReg(4, ZERO), OffloadReg(4, ZERO),
                                   OffloadReg(4, ZERO), OffloadReg(4, ZERO), OffloadReg(4, ZERO)]

  /** BOOL in place on word 4 with mask 0xff and xor 0 is offloaded, by both
      versions, as the mask [0xff, 0, 0, 0]; the same expression writing word 5
      is refused. */
  lemma OffloadAcceptsExample()
    ensures var e := Bitwise(4, 4, 4, BoolBody(Immediate([0xFF, 0, 0, 0]), Immediate(ZERO)));
      && Offload(e, OREGS) == Ok(InstallMask(OREGS, 4, [0xFF, 0, 0, 0]))
      && OffloadChecked(e, OREGS) == Offload(e, OREGS)
      && Offload(e.(dreg := 5), OREGS) == Err(EOPNOTSUPP)
  {
    var e := Bitwise(4, 4, 4, BoolBody(Immediate([0xFF, 0, 0, 0]), Immediate(ZERO)));
    assert WellFormed(e) && WellFormed(e.(dreg := 5));
    assert UnionImage(e.body.xor) == ZERO;
  }

  /** BOOL in place on word 4 whose mask is word 8 and whose xor is zero (the
      expression init builds from such a table). As written, offload accepts
      it and installs the register index 8 as the mask; evaluation masks with
      the contents of word 8 instead. */
  lemma OffloadRegisterMaskExample()
    ensures var e := Bitwise(4, 4, 4, BoolBody(Register(8), Immediate(ZERO)));
      && Offload(e, OREGS) == Ok(InstallMask(OREGS, 4, [8, 0, 0, 0]))
      && OffloadChecked(e, OREGS) == Err(EOPNOTSUPP)
  {
    var e := Bitwise(4, 4, 4, BoolBody(Register(8), Immediate(ZERO)));
    assert UnionImage(Register(8)) == [8, 0, 0, 0];
    assert UnionImage(Immediate(ZERO)) == ZERO;
    assert Flags(e.body) & MASK_REG != 0;
  }

  /** On the file whose words 4 and 8 are all ones, evaluating the expression
      of OffloadRegisterMaskExample leaves word 4 all ones, while the mask that
      offload installed leaves 8. */
  lemma OffloadRegisterMaskDiffers()
    ensures var e := Bitwise(4, 4, 4, BoolBody(Register(8), Immediate(ZERO)));
      var regs: seq<bv32> := [0, 0, 0, 0, 0xFFFF_FFFF, 0, 0, 0, 0xFFFF_FFFF];
      && Eval(e, regs)[4] == 0xFFFF_FFFF
      && MaskWords(Window(regs, 4, 1), [8, 0, 0, 0])[0] == 8
  {
    var e := Bitwise(4, 4, 4, BoolBody(Register(8), Immediate(ZERO)));
    var regs: seq<bv32> := [0, 0, 0, 0, 0xFFFF_FFFF, 0, 0, 0, 0xFFFF_FFFF];
    assert Words(4) == 1;
    BoolEval(e, regs);
    OverwriteAt(regs, 4, MaskXorWords(regs, 4, Register(8), Immediate(ZERO), 1), 4);
    MaskXorZero(0xFFFF_FFFF, 0xFFFF_FFFF);
  }
}

=== FILE: registers.dfy ===
/** The register file the expression reads and writes, and the contract that
    decides which register windows a rule may name. */
module Registers {
  import opened Errors

  /** DIV_ROUND_UP(len, 4): the number of 32-bit words a `len`-byte value spans. */
  function Words(len: nat): (n: nat)
    ensures 4 * n >= len && 4 * n < len + 4
  {
    (len + 3) / 4
  }

  /** The `n` words of `regs` starting at word `r`. */
  function Window(regs: seq<bv32>, r: nat, n: nat): (w: seq<bv32>)
    requires r + n <= |regs|
    ensures |w| == n
  {
    regs[r..r + n]
  }

  /** `regs` with the words starting at `r` replaced by `ws`, every other word kept. */
  function Overwrite(regs: seq<bv32>, r: nat, ws: seq<bv32>): (out: seq<bv32>)
    requires r + |ws| <= |regs|
    ensures |out| == |regs|
  {
    regs[..r] + ws + regs[r + |ws|..]
  }

  /** One word of an overwritten file: from `ws` inside the run, from `regs` outside it. */
  lemma OverwriteAt(regs: seq<bv32>, r: nat, ws: seq<bv32>, k: nat)
    requires r + |ws| <= |regs| && k < |regs|
    ensures Overwrite(regs, r, ws)[k] == if r <= k < r + |ws| then ws[k - r] else regs[k]
  {
  }

  /** Writing the word just past an overwritten run extends the run. */
  lemma OverwriteExtend(regs: seq<bv32>, r: nat, ws: seq<bv32>, v: bv32)
    requires r + |ws| < |regs|
    ensures Overwrite(regs, r, ws)[r + |ws| := v] == Overwrite(regs, r, ws + [v])
  {
    var a, b := Overwrite(regs, r, ws)[r + |ws| := v], Overwrite(regs, r, ws + [v]);
    assert |a| == |b|;
    forall k | 0 <= k < |a|
      ensures a[k] == b[k]
    {
      OverwriteAt(regs, r, ws, k);
      OverwriteAt(regs, r, ws + [v], k);
    }
  }

  /** Writing the word just before an overwritten run extends the run downwards. */
  lemma OverwritePrepend(regs: seq<bv32>, r: nat, ws: seq<bv32>, v: bv32)
    requires 0 < r && r + |ws| <= |regs|
    ensures Overwrite(regs, r, ws)[r - 1 := v] == Overwrite(regs, r - 1, [v] + ws)
  {
    var a, b := Overwrite(regs, r, ws)[r - 1 := v], Overwrite(regs, r - 1, [v] + ws);
    assert |a| == |b|;
    forall k | 0 <= k < |a|
      ensures a[k] == b[k]
    {
      OverwriteAt(regs, r, ws, k);
      OverwriteAt(regs, r - 1, [v] + ws, k);
    }
  }

  /** Writing word `k` of `ws` just below the run `ws[k..]` grows the run to `ws[k - 1..]`. */
  lemma OverwriteGrowDown(regs: seq<bv32>, r: nat, ws: seq<bv32>, k: nat)
    requires 0 < k <= |ws| && r + |ws| <= |regs|
    ensures Overwrite(regs, r + k, ws[k..])[r + k - 1 := ws[k - 1]] == Overwrite(regs, r + k - 1, ws[k - 1..])
  {
    OverwritePrepend(regs, r + k, ws[k..], ws[k - 1]);
    assert [ws[k - 1]] + ws[k..] == ws[k - 1..];
  }

  /** Writing word `k` of `ws` just above the run `ws[..k]` grows the run to `ws[..k + 1]`. */
  lemma OverwriteGrowUp(regs: seq<bv32>, r: nat, ws: seq<bv32>, k: nat)
    requires k < |ws| && r + |ws| <= |regs|
    ensures Overwrite(regs, r, ws[..k])[r + k := ws[k]] == Overwrite(regs, r, ws[..k + 1])
  {
    OverwriteExtend(regs, r, ws[..k], ws[k]);
    assert ws[..k] + [ws[k]] == ws[..k + 1];
  }

  /** The trivial slices of a sequence. */
  lemma SliceEnds<T>(ws: seq<T>)
    ensures ws[|ws|..] == [] && ws[..0] == [] && ws[0..] == ws && ws[..|ws|] == ws
  {
  }

  lemma OverwriteNothing(regs: seq<bv32>, r: nat)
    requires r <= |regs|
    ensures Overwrite(regs, r, []) == regs
  {
    assert regs[..r] + regs[r..] == regs;
  }

  lemma WindowOfOverwrite(regs: seq<bv32>, r: nat, ws: seq<bv32>)
    requires r + |ws| <= |regs|
    ensures Window(Overwrite(regs, r, ws), r, |ws|) == ws
  {
    var out := Overwrite(regs, r, ws);
    forall k | 0 <= k < |ws|
      ensures out[r + k] == ws[k]
    {
      OverwriteAt(regs, r, ws, r + k);
    }
  }

  /** The register-file contract of nf_tables, seen from the expression:
      `parse` stands for nft_parse_register (attribute value to 32-bit word
      index), `unparse` for the value nft_dump_register puts on the wire, and
      `load(r, len)` and `store(r, len)` for nft_validate_register_load and
      nft_validate_register_store (NULL data, NFT_DATA_VALUE), which return 0
      or an errno for a word index and a byte length. Their bodies belong to
      nf_tables_api.c, which is not part of this model. `capacity` is the
      number of 32-bit words in struct nft_regs. */
  datatype RegisterContract = RegisterContract(
    capacity: nat,
    parse: nat -> nat,
    unparse: nat -> nat,
    load: (nat, nat) -> Check,
    store: (nat, nat) -> Check)

  /** What the expression relies on: a window the contract accepts lies inside
      the register file. */
  ghost predicate Sound(rc: RegisterContract)
  {
    forall r: nat, len: nat ::
      && (rc.load(r, len).Pass? ==> r + Words(len) <= rc.capacity)
      && (rc.store(r, len).Pass? ==> r + Words(len) <= rc.capacity)
  }

  /** Dumping a register index the contract accepts for a load or a store,
      and parsing it back, gives the index again. Indices no check accepts
      are left free: the kernel's own pair dumps word 20 as 5, which parses
      back as word 1. */
  ghost predicate Reparses(rc: RegisterContract)
  {
    forall r: nat, len: nat :: rc.load(r, len).Pass? || rc.store(r, len).Pass? ==> rc.parse(rc.unparse(r)) == r
  }
}

=== FILE: scenarios.dfy ===
/** Whole-expression facts and worked cases: an accepted table never makes
    the evaluation leave the register file, and a few concrete tables and
    register files, under a register contract with the shape of the kernel's
    (20 words, words 0 to 3 the verdict, loads and stores refused when empty
    or past the end). */
module Scenarios {
  import opened Errors
  import opened Registers
  import opened Expr
  import opened WordShift
  import opened Attributes
  import opened BitwiseInit
  import opened BitwiseEval
  import opened BitwiseDump
  import opened BitwiseOffload

  /** Whatever table init accepts under a sound contract, evaluating the
      expression on a file of `capacity` words stays inside it. */
  lemma InitInBounds(rc: RegisterContract, a: Attrs)
    requires Sound(rc) && Init(rc, a).result.Ok?
    ensures InBounds(Init(rc, a).result.value, rc.capacity)
  {
    ValidInBounds(rc, Init(rc, a).result.value);
  }

  /** Words in struct nft_regs. */
  const REG_WORDS: nat := 20

  /** A load or store window: not the verdict words, not empty, inside the file. */
  function WindowCheck(r: nat, len: nat): (c: Check)
    ensures c.Pass? ==> r + Words(len) <= REG_WORDS
  {
    if r < 4 then Fail(EINVAL)
    else if len == 0 then Fail(EINVAL)
    else if r * 4 + len > REG_WORDS * 4 then Fail(ERANGE)
    else Pass
  }

  /** Registers named by their word index on the wire. */
  function Sample(): (rc: RegisterContract)
    ensures rc.capacity == REG_WORDS
  {
    RegisterContract(REG_WORDS, v => v, r => r, WindowCheck, WindowCheck)
  }

  lemma SampleSound()
    ensures Sound(Sample()) && Reparses(Sample())
  {
  }

  /** A file of 20 words, 0x12345678 in word 4 and zero elsewhere. */
  function File(): (regs: seq<bv32>)
    ensures |regs| == REG_WORDS
  {
    seq(REG_WORDS, k requires 0 <= k < REG_WORDS => if k == 4 then 0x1234_5678 else 0)
  }

  /** A 4-byte left shift of word 4 in place by `amount`. */
  function ShiftTable(amount: bv32): Attrs
  {
    NoAttrs.(sreg := Some(4), dreg := Some(4), len := Some(4), op := Some(OpCode(LShift)),
             data := Some(Data(Value, 4, [amount])))
  }

  /** A shift by 31 is accepted; a shift by 32 is refused with EINVAL after
      its DATA was decoded, and that DATA is released. */
  lemma ShiftAmountBound()
    ensures Init(Sample(), ShiftTable(31)).result == Ok(Bitwise(4, 4, 4, ShiftBody(Left, [31, 0, 0, 0])))
    ensures Init(Sample(), ShiftTable(32)) == Outcome(Err(EINVAL), [Hold(DataSlot, Value)], [Hold(DataSlot, Value)])
  {
    assert WindowCheck(4, 4) == Pass;
    var d31, d32 := DataInit(Data(Value, 4, [31])), DataInit(Data(Value, 4, [32]));
    assert d31.value.storage == [31, 0, 0, 0];
    assert d32.value.storage[0] == 32;
  }

  /** BOOL with mask 0xff and xor 0 on word 4 in place: 0x12345678 becomes 0x78. */
  lemma BoolSample()
    ensures Eval(Bitwise(4, 4, 4, BoolBody(Immediate([0xFF, 0, 0, 0]), Immediate([0, 0, 0, 0]))), File())[4] == 0x78
  {
    var e := Bitwise(4, 4, 4, BoolBody(Immediate([0xFF, 0, 0, 0]), Immediate([0, 0, 0, 0])));
    var regs := File();
    assert Words(4) == 1;
    BoolEval(e, regs);
    var ws := MaskXorWords(regs, 4, e.body.mask, e.body.xor, 1);
    assert ws[0] == MaskXor(0x1234_5678, 0xFF, 0);
    MaskXorSample();
    OverwriteAt(regs, 4, ws, 4);
  }

  lemma MaskXorSample()
    ensures MaskXor(0x1234_5678, 0xFF, 0) == 0x78
  {
  }

  /** LSHIFT by 4 on word 4 in place: 0x12345678 becomes 0x23456780. */
  lemma LShiftSample()
    ensures Eval(Bitwise(4, 4, 4, ShiftBody(Left, [4, 0, 0, 0])), File())[4] == 0x2345_6780
  {
    var e := Bitwise(4, 4, 4, ShiftBody(Left, [4, 0, 0, 0]));
    var regs := File();
    assert Words(4) == 1;
    LShiftEvalInPlace(e, regs);
    var src := Window(regs, 4, 1);
    assert src == [0x1234_5678];
    assert src[1..] == [];
    var ws := InPlaceLShiftWords(src, 4);
    assert ws == [LeftWord(0x1234_5678, 0, 4)];
    LeftWordIs(0x1234_5678, 0, 4);
    OverwriteAt(regs, 4, ws, 4);
  }

  /** NFT_REG_4, the last 16-byte register number, and NFT_REG32_00, the
      first 32-bit one. */
  const NFT_REG_4: nat := 4
  const NFT_REG32_00: nat := 8

  /** nft_parse_register: a 16-byte register number r <= NFT_REG_4 names word
      4 * r, any larger number v names word v + 4 - NFT_REG32_00. */
  function KernelParse(v: nat): (r: nat)
    ensures v <= NFT_REG_4 ==> r == 4 * v
  {
    if v <= NFT_REG_4 then v * 4 else v + 4 - NFT_REG32_00
  }

  /** nft_dump_register: a word index that starts a 16-byte register is dumped
      as that register's number, any other as a 32-bit register number. */
  function KernelUnparse(r: nat): (v: nat)
    ensures r % 4 != 0 ==> v > NFT_REG_4
  {
    if r % 4 == 0 then r / 4 else r - 4 + NFT_REG32_00
  }

  /** The register contract with the kernel's numbering and window checks. */
  function Kernel(): (rc: RegisterContract)
    ensures rc.capacity == REG_WORDS && rc.load == WindowCheck && rc.store == WindowCheck
  {
    RegisterContract(REG_WORDS, KernelParse, KernelUnparse, WindowCheck, WindowCheck)
  }

  /** Every word index of the file survives the kernel's dump and parse. */
  lemma KernelReparsesBelow(r: nat)
    requires r < REG_WORDS
    ensures KernelParse(KernelUnparse(r)) == r
  {
    if r % 4 == 0 {
      assert r / 4 <= NFT_REG_4;
    }
  }

  /** The kernel's contract keeps accepted windows inside the file and
      reparses every index it accepts. */
  lemma KernelSound()
    ensures Sound(Kernel()) && Reparses(Kernel())
  {
    forall r: nat, len: nat | WindowCheck(r, len).Pass?
      ensures KernelParse(KernelUnparse(r)) == r
    {
      KernelReparsesBelow(r);
    }
  }

  /** Past the file the kernel's pair is lossy: word 20 is dumped as 5, which
      parses back as word 1, and no check accepts word 20. */
  lemma KernelLossyPastFile()
    ensures KernelUnparse(20) == 5 && KernelParse(5) == 1
    ensures forall len: nat :: WindowCheck(20, len).Fail?
  {
  }

  /** Under the kernel's contract every valid expression is listed as a table
      init turns back into the same expression. */
  lemma KernelRoundTrip(e: Bitwise)
    requires Valid(Kernel(), e)
    ensures Init(Kernel(), Dump(Kernel(), e)) == Outcome(Ok(e), Holds(e), [])
  {
    KernelSound();
    RoundTrip(Kernel(), e);
  }

  /** A BOOL table on the wire: SREG = DREG = NFT_REG32_00 (word 4), LEN = 4,
      MREG = NFT_REG32_04 (word 8) and a zero XOR. */
  function MaskRegisterTable(): Attrs
  {
    NoAttrs.(sreg := Some(8), dreg := Some(8), len := Some(4), mreg := Some(12),
             xor := Some(Data(Value, 4, [0])))
  }

  /** Init accepts that table, building the expression that offload as written
      hands to hardware with the index 8 as the mask. */
  lemma MaskRegisterTableAccepted()
    ensures Init(Kernel(), MaskRegisterTable()).result == Ok(Bitwise(4, 4, 4, BoolBody(Register(8), Immediate(ZERO))))
    ensures Offload(Init(Kernel(), MaskRegisterTable()).result.value, OREGS) == Ok(InstallMask(OREGS, 4, [8, 0, 0, 0]))
  {
    assert WindowCheck(4, 4) == Pass && WindowCheck(8, 4) == Pass;
    var d := DataInit(Data(Value, 4, [0]));
    assert d.value.storage == ZERO;
    OffloadRegisterMaskExample();
  }

  /** An xor in register form names a word the load check accepted, never
      word 0, so its union is never all zero and offload as written refuses
      it: the flags are ignored harmlessly on the xor side. */
  lemma OffloadRefusesXorRegister(e: Bitwise, oregs: seq<OffloadReg>)
    requires Valid(Kernel(), e) && e.dreg < |oregs|
    requires e.body.BoolBody? && e.body.xor.Register?
    ensures Offload(e, oregs) == Err(EOPNOTSUPP)
  {
    assert WindowCheck(e.body.xor.reg, e.len).Pass?;
  }
}

=== FILE: wordshift.dfy ===
/** Shifting a value held as a sequence of 32-bit words, word 0 the most
    significant, by fewer than 32 bits. The shift amount and the position of a
    bit inside a word are `bv32`, so every fact below is plain bit-vector
    reasoning. */
module WordShift {

  /** Bit `k` of `w`, counting from the most significant bit (k = 0). */
  predicate Bit(w: bv32, k: bv32)
    requires k < 32
  {
    (w >> (31 - k)) & 1 == 1
  }

  /** Bit `k` of word `i` of the big-endian concatenation of `ws`; positions
      outside the value read as 0. */
  predicate BitOf(ws: seq<bv32>, i: int, k: bv32)
    requires k < 32
  {
    0 <= i < |ws| && Bit(ws[i], k)
  }

  /** `r` is `ws`, read as one big-endian number of 32 * |ws| bits, shifted left
      by `s`: every bit moves `s` places towards word 0, bits leaving word 0 are
      lost and zeros enter the last word. */
  ghost predicate IsLeftShift(ws: seq<bv32>, r: seq<bv32>, s: bv32)
    requires s < 32
  {
    && |r| == |ws|
    && forall i, k: bv32 :: 0 <= i < |r| && k < 32 ==>
         Bit(r[i], k) == if k + s < 32 then Bit(ws[i], k + s) else BitOf(ws, i + 1, k + s - 32)
  }

  /** `r` is `ws` shifted right by `s` as one number: every bit moves `s` places
      away from word 0, zeros enter word 0 and bits leaving the last word are lost. */
  ghost predicate IsRightShift(ws: seq<bv32>, r: seq<bv32>, s: bv32)
    requires s < 32
  {
    && |r| == |ws|
    && forall i, k: bv32 :: 0 <= i < |r| && k < 32 ==>
         Bit(r[i], k) == if k >= s then Bit(ws[i], k - s) else BitOf(ws, i - 1, k + 32 - s)
  }

  /** The bits of `w` a left shift by `s` moves out of its word (into the
      low end of the word before it). A shift by 32 yields 0, so `s == 0`
      carries nothing. */
  function CarryLeft(w: bv32, s: bv32): bv32
    requires s < 32
  {
    w >> (32 - s)
  }

  /** `w` shifted left by `s`, with `carry` in the vacated low bits. */
  function ShiftInLeft(w: bv32, s: bv32, carry: bv32): bv32
    requires s < 32
  {
    (w << s) | carry
  }

  /** The bits of `w` a right shift by `s` moves out of its word (into the
      high end of the word after it). */
  function CarryRight(w: bv32, s: bv32): bv32
    requires s < 32
  {
    w << (32 - s)
  }

  /** `w` shifted right by `s`, with `carry` in the vacated high bits. */
  function ShiftInRight(carry: bv32, w: bv32, s: bv32): bv32
    requires s < 32
  {
    carry | (w >> s)
  }

  /** The word a left shift leaves at one position: its own bits moved up, and
      the top `s` bits of the next word carried in. */
  function LeftWord(w: bv32, next: bv32, s: bv32): bv32
    requires s < 32
  {
    ShiftInLeft(w, s, CarryLeft(next, s))
  }

  /** The word a right shift leaves at one position: its own bits moved down,
      and the low `s` bits of the previous word carried in. */
  function RightWord(prev: bv32, w: bv32, s: bv32): bv32
    requires s < 32
  {
    ShiftInRight(CarryRight(prev, s), w, s)
  }

  /** A zero word carries nothing either way. */
  lemma CarryOfZero(s: bv32)
    requires s < 32
    ensures CarryLeft(0, s) == 0 && CarryRight(0, s) == 0
  {
  }

  /** A shift by 0 moves no bit across a word boundary: each word is its own
      value again, because shifting a bv32 by 32 gives 0. */
  lemma ShiftByZero(prev: bv32, w: bv32, next: bv32)
    ensures CarryLeft(w, 0) == 0 && CarryRight(w, 0) == 0
    ensures LeftWord(w, next, 0) == w && RightWord(prev, w, 0) == w
  {
    LeftByZero(w, w);
    LeftByZero(w, next);
    RightByZero(w, w);
    RightByZero(prev, w);
  }

  lemma LeftByZero(w: bv32, next: bv32)
    ensures CarryLeft(next, 0) == 0 && LeftWord(w, next, 0) == w
  {
    assert next >> 32 == 0;
    assert w << 0 == w;
  }

  lemma RightByZero(prev: bv32, w: bv32)
    ensures CarryRight(prev, 0) == 0 && RightWord(prev, w, 0) == w
  {
    assert prev << 32 == 0;
    assert w >> 0 == w;
  }

  lemma ShiftOrBit(a: bv32, b: bv32, s: bv32, k: bv32)
    requires s < 32 && k < 32
    ensures Bit((a << s) | (b >> (32 - s)), k) == if k + s < 32 then Bit(a, k + s) else Bit(b, k + s - 32)
  {
  }

  lemma ShiftOrBitRight(b: bv32, a: bv32, s: bv32, k: bv32)
    requires s < 32 && k < 32
    ensures Bit((b << (32 - s)) | (a >> s), k) == if k >= s then Bit(a, k - s) else Bit(b, k + 32 - s)
  {
  }

  lemma LeftWordIs(w: bv32, next: bv32, s: bv32)
    requires s < 32
    ensures LeftWord(w, next, s) == (w << s) | (next >> (32 - s))
  {
  }

  lemma RightWordIs(prev: bv32, w: bv32, s: bv32)
    requires s < 32
    ensures RightWord(prev, w, s) == (prev << (32 - s)) | (w >> s)
  {
  }

  lemma LeftWordBit(w: bv32, next: bv32, s: bv32, k: bv32)
    requires s < 32 && k < 32
    ensures Bit(LeftWord(w, next, s), k) == if k + s < 32 then Bit(w, k + s) else Bit(next, k + s - 32)
  {
    LeftWordIs(w, next, s);
    ShiftOrBit(w, next, s, k);
  }

  lemma RightWordBit(prev: bv32, w: bv32, s: bv32, k: bv32)
    requires s < 32 && k < 32
    ensures Bit(RightWord(prev, w, s), k) == if k >= s then Bit(w, k - s) else Bit(prev, k + 32 - s)
  {
    RightWordIs(prev, w, s);
    ShiftOrBitRight(prev, w, s, k);
  }

  lemma ZeroBit(k: bv32)
    requires k < 32
    ensures !Bit(0, k)
  {
  }

  /** The left shift computed word by word: what the shift loop produces when
      it reads every source word before any destination word is written. */
  function LShiftWords(ws: seq<bv32>, s: bv32): (r: seq<bv32>)
    requires s < 32
    ensures |r| == |ws|
  {
    seq(|ws|, i requires 0 <= i < |ws| => LeftWord(ws[i], if i + 1 < |ws| then ws[i + 1] else 0, s))
  }

  /** The right shift computed word by word, every source word read before any write. */
  function RShiftWords(ws: seq<bv32>, s: bv32): (r: seq<bv32>)
    requires s < 32
    ensures |r| == |ws|
  {
    seq(|ws|, i requires 0 <= i < |ws| => RightWord(if i > 0 then ws[i - 1] else 0, ws[i], s))
  }

  /** The word-by-word left shift is the shift of the whole number. */
  lemma LShiftWordsIsLeftShift(ws: seq<bv32>, s: bv32)
    requires s < 32
    ensures IsLeftShift(ws, LShiftWords(ws, s), s)
  {
    var r := LShiftWords(ws, s);
    forall i, k: bv32 | 0 <= i < |r| && k < 32
      ensures Bit(r[i], k) == if k + s < 32 then Bit(ws[i], k + s) else BitOf(ws, i + 1, k + s - 32)
    {
      var next: bv32 := if i + 1 < |ws| then ws[i + 1] else 0;
      LeftWordBit(ws[i], next, s, k);
      if k + s >= 32 && i + 1 >= |ws| {
        ZeroBit(k + s - 32);
      }
    }
  }

  /** The word-by-word right shift is the shift of the whole number. */
  lemma RShiftWordsIsRightShift(ws: seq<bv32>, s: bv32)
    requires s < 32
    ensures IsRightShift(ws, RShiftWords(ws, s), s)
  {
    var r := RShiftWords(ws, s);
    forall i, k: bv32 | 0 <= i < |r| && k < 32
      ensures Bit(r[i], k) == if k >= s then Bit(ws[i], k - s) else BitOf(ws, i - 1, k + 32 - s)
    {
      var prev: bv32 := if i > 0 then ws[i - 1] else 0;
      RightWordBit(prev, ws[i], s, k);
      if k < s && i == 0 {
        ZeroBit(k + 32 - s);
      }
    }
  }

  /** What the left-shift loop leaves in the window when source and destination
      are the same words: the carry into word i is read back from word i + 1
      after word i + 1 was overwritten. */
  function InPlaceLShiftWords(ws: seq<bv32>, s: bv32): (r: seq<bv32>)
    requires s < 32
    ensures |r| == |ws|
    decreases |ws|
  {
    if |ws| == 0 then []
    else
      var tail := InPlaceLShiftWords(ws[1..], s);
      [LeftWord(ws[0], if |tail| > 0 then tail[0] else 0, s)] + tail
  }

  /** What the right-shift loop leaves in the window when source and destination
      are the same words: the carry into word i is read back from word i - 1
      after word i - 1 was overwritten. */
  function InPlaceRShiftWords(ws: seq<bv32>, s: bv32): (r: seq<bv32>)
    requires s < 32
    ensures |r| == |ws|
    decreases |ws|
  {
    if |ws| == 0 then []
    else
      var front := InPlaceRShiftWords(ws[..|ws| - 1], s);
      front + [RightWord(if |front| > 0 then front[|front| - 1] else 0, ws[|ws| - 1], s)]
  }

  /** With a single word there is no carry to read back, so the in-place left
      shift is the clean one. */
  lemma InPlaceLShiftOneWord(ws: seq<bv32>, s: bv32)
    requires s < 32 && |ws| <= 1
    ensures InPlaceLShiftWords(ws, s) == LShiftWords(ws, s)
  {
    if |ws| == 1 {
      assert ws[1..] == [];
    }
  }

  /** With a single word the in-place right shift is the clean one. */
  lemma InPlaceRShiftOneWord(ws: seq<bv32>, s: bv32)
    requires s < 32 && |ws| <= 1
    ensures InPlaceRShiftWords(ws, s) == RShiftWords(ws, s)
  {
    if |ws| == 1 {
      assert ws[..0] == [];
    }
  }

  /** Two words, shifted left by 4 in place: the four bits that should cross
      from word 1 into word 0 are read after word 1 was shifted, and are lost. */
  lemma InPlaceLShiftLosesCarry()
    ensures LShiftWords([0, 0xF000_0000], 4) == [0xF, 0]
    ensures InPlaceLShiftWords([0, 0xF000_0000], 4) == [0, 0]
  {
    LeftWordIs(0, 0xF000_0000, 4);
    LeftWordIs(0xF000_0000, 0, 4);
    LeftWordIs(0, 0, 4);
    assert [0, 0xF000_0000][1..] == [0xF000_0000 as bv32];
    assert InPlaceLShiftWords([0xF000_0000], 4) == [0];
  }

  /** Two words, shifted right by 4 in place: the bits that should cross from
      word 0 into word 1 are lost the same way. */
  lemma InPlaceRShiftLosesCarry()
    ensures RShiftWords([0xF, 0], 4) == [0, 0xF000_0000]
    ensures InPlaceRShiftWords([0xF, 0], 4) == [0, 0]
  {
    RightWordIs(0, 0xF, 4);
    RightWordIs(0xF, 0, 4);
    RightWordIs(0, 0, 4);
    assert [0xF, 0][..1] == [0xF as bv32];
    assert InPlaceRShiftWords([0xF], 4) == [0];
  }
}
